=== FILE: README.md ===
# tether-core in Dafny

A model of the pure logic of tether-core, a personal-data engine. The model covers:

- **The TetherChain audit ledger** (`TetherChain`). This is an append-only JSON-lines log. Each entry carries `previous_hash`, the hash of the entry before it, and `current_hash`, its own hash. The model covers:
  - the entry hash;
  - recovering the in-memory tip from the log at startup;
  - `add_entry`, including a failed write;
  - the newest-first, filtered, paginated reader `get_log_entries`;
  - `verify_chain_integrity`.

  The log is a sequence of lines, each reduced to what `json.loads` makes of it. The hash (SHA-256 over key-sorted JSON) is a parameter `h: Content -> Digest`, so every property holds for any hash function.
- **The consent engine** (`Consent`). A per-user list of consent records, changed by grant, revoke and the simulated request, and read by check and list. The model includes the store invariant that every stored record is active.
- **The Chroma memory store's pure parts** (`TagCodec`, `ChromaStore`):
  - the `tags_str` encoding of an echo's tags and its decoding;
  - the defaults used when a stored record lacks fields;
  - the `where` filter of `list_echos`;
  - the field-by-field merge of `update_echo`.
- **The agent manifest reader** (`Manifest`): the `agent_id` validator, the choice of YAML or JSON reader by file extension, the `AgentManifest` shape check, and the rule that every failure yields `None`.
- **The two example agents** (`FocusMind`, `CalendarMind`). Each is a small state machine driven by phrases found in the lower-cased task description.

Supporting modules:

- `Base`: `Option`, `Result`, `Reverse`, and Python slicing with negative and out-of-range bounds.
- `Strings`: the Python `str` operations the code uses, with ASCII character classes.
- `Values`: JSON/YAML values and Python truthiness.

Points about the ledger code worth knowing before reading the contracts:

- `verify_chain_integrity` trusts the stored hashes. The recomputation at `service.py:161-175` is commented out. `TetherChain.VerifyChainIntegrity` checks links only, and `TetherChain.StrictBreak` models the recomputing walk as an extension.
- `get_log_entries` skips only blank and undecodable lines. A record that decodes to something other than an entry empties the whole listing in two cases:
  - it lies inside the requested page, where `TetherChainEntry(**data)` raises;
  - it is not an object and a filter is supplied, where `.get` raises.

  Outside those cases it has no effect.
- At startup the service has no tip when the last line is blank or undecodable. Given the pydantic import the module lacks (see "## Left out"), startup fails only when the last line is JSON but not an object, because the `AttributeError` from `.get` is not caught.
- `get_log_entries` lists newest first only. The reversal at line 135 is commented out.

## Model

| member | source | states |
|---|---|---|
| TetherChain.HashIgnoresCurrentHash | src/tethercore_engine/tether_chain/service.py:18-25 | two entries that differ only in `current_hash` hash alike, so storing the hash in the entry leaves its hash unchanged |
| TetherChain.CalculateHash | src/tethercore_engine/tether_chain/service.py:18-25 | the hash covers every field of the entry except `current_hash`, whose value is irrelevant |
| TetherChain.InitialTip | src/tethercore_engine/tether_chain/service.py:41-57 | missing file, empty file, or blank or undecodable last line: no tip; a JSON-object last line: its `current_hash` (none when absent); a last line that is JSON but not an object is the only startup failure |
| TetherChain.Open | src/tethercore_engine/tether_chain/service.py:36-57 | the service opens on the file as it is; it fails exactly when the last line is JSON but not an object; on a clean log the tip is the newest entry's `current_hash` |
| TetherChain.OpenRecoversTip | src/tethercore_engine/tether_chain/service.py:41-57 | restarting on the file that a well-formed ledger wrote recovers exactly that ledger's tip |
| TetherChain.AddEntry | src/tethercore_engine/tether_chain/service.py:60-96 | the call succeeds iff the write does; a failed write leaves file and tip unchanged; on success the entry has the given fields (details default `{}`), links to the tip held before the call, is sealed with the hash of its other fields, is appended as the last line, and its hash becomes the tip |
| TetherChain.AddPreservesWellFormed | src/tethercore_engine/tether_chain/service.py:75-90 | appending, successful or not, keeps the log clean, linked and sealed, with the tip equal to the last entry's hash |
| TetherChain.AddAllWellFormed | src/tethercore_engine/tether_chain/service.py:60-96 | any sequence of `add_entry` calls keeps the ledger well formed and adds one line per successful write |
| TetherChain.AppendsFormChain | src/tethercore_engine/tether_chain/service.py:52-90 | from a missing log, N calls leave one entry per successful write; entry 0 has no previous hash; every later entry's `previous_hash` is its predecessor's `current_hash` |
| TetherChain.ChronologicalEntries | src/tethercore_engine/tether_chain/service.py:113-126 | on a clean log, the readable entries oldest first are exactly the logged entries |
| TetherChain.RelevantRecords | src/tethercore_engine/tether_chain/service.py:113-126 | the newest-first loop over the lines collects exactly the matching records, newest first, and raises exactly when a filter is supplied and some line is JSON but not an object |
| TetherChain.PageEntries | src/tethercore_engine/tether_chain/service.py:131-142 | the page converts to its entries in order when every record is an entry, and to `[]` otherwise |
| TetherChain.GetLogEntries | src/tethercore_engine/tether_chain/service.py:104-143 | the loops with their skips, filters, slicing and conversion return exactly the listing: the `[offset : offset+limit]` slice of the newest-first matches, or `[]` when the file is missing or reading raises |
| TetherChain.ListingProperties | src/tethercore_engine/tether_chain/service.py:104-143 | a missing file lists nothing; a page holds at most `limit` entries for `limit >= 0`, whatever the offset; every listed entry satisfies every supplied filter |
| TetherChain.MatchingMembers | src/tethercore_engine/tether_chain/service.py:113-124 | a record is kept iff some line decodes to it and it passes every truthy filter; the filters form a conjunction and an absent filter matches everything |
| TetherChain.SkippedLinesIgnored | src/tethercore_engine/tether_chain/service.py:113-126 | removing a blank or undecodable line changes no listing |
| TetherChain.CleanListingIsNewestFirst | src/tethercore_engine/tether_chain/service.py:109-135 | without filters, a clean log lists entries `offset` to `offset+limit` counted from the newest |
| TetherChain.LinkBreak | src/tethercore_engine/tether_chain/service.py:155-177 | the walk finds no break iff every entry's `previous_hash` equals the expected hash, which starts at genesis and then follows each `current_hash`; otherwise it returns the first bad position |
| TetherChain.BreakIsFirstBadLink | src/tethercore_engine/tether_chain/service.py:155-159 | on a clean log, the reported break is the first entry whose `previous_hash` is wrong, and verification fails |
| TetherChain.NewestFirstRejectsChain | src/tethercore_engine/tether_chain/service.py:151-156 | as written, verification rejects every appended chain of two or more entries, which the intended check accepts |
| TetherChain.VerifyAsWritten | src/tethercore_engine/tether_chain/service.py:145-180 | as written: a missing log passes; otherwise the result is true iff the newest-first listing of at most 1,000,000 entries is linked from no previous hash, taken in listing order |
| TetherChain.UnreadableRecordPassesAsWritten | src/tethercore_engine/tether_chain/service.py:140-153 | as written, any record among the newest 1,000,000 lines that decodes to something other than an entry (a non-object, or an object that is not a valid entry) makes verification succeed, whatever the other lines hold; the intended check fails |
| TetherChain.ReversedListingRejectsLongChain | src/tethercore_engine/tether_chain/service.py:151 | reversing the listing would still reject chains longer than the 1,000,000-entry limit, because the oldest listed entry has a predecessor |
| TetherChain.VerifyChainIntegrity | src/tethercore_engine/tether_chain/service.py:145-180 | intended verification: a missing log is valid; a clean log is valid iff linked oldest first from no previous hash; a log with any record that is not an entry fails |
| TetherChain.WellFormedVerifies | src/tethercore_engine/tether_chain/service.py:145-180 | every ledger the appender keeps passes verification |
| TetherChain.AppendedLogVerifies | src/tethercore_engine/tether_chain/service.py:145-180 | every log built from nothing by `add_entry` calls passes verification |
| TetherChain.StrictBreak | src/tethercore_engine/tether_chain/service.py:161-175 | with the commented-out recomputation, the first entry that is unlinked or whose stored hash differs from its content's hash |
| TetherChain.TamperedDetailsDetected | src/tethercore_engine/tether_chain/service.py:161-175 | changing the details of entry k, in a way that changes its hash, is reported at exactly position k |
| Base.PageBounds | src/tethercore_engine/tether_chain/service.py:129 | a Python slice `[offset : offset+limit]` with `limit >= 0` has at most `limit` items for any offset, holds only items of the list, and is the ordinary sub-sequence for non-negative bounds |
| TagCodec.SortedDistinct | src/tethercore_engine/memory_graph/chroma_store.py:82 | `sorted(list(set(tags)))` is strictly increasing and has exactly the elements of `tags` |
| TagCodec.EncodeTags | src/tethercore_engine/memory_graph/chroma_store.py:82 | missing or empty tags encode to `""`; otherwise `tags_str` is the ','-join of a strictly sorted list with exactly the echo's tags |
| TagCodec.SortedUnique | src/tethercore_engine/memory_graph/chroma_store.py:82 | two strictly sorted lists with the same elements are equal, so the sorted distinct form is canonical |
| TagCodec.EncodeIgnoresOrderAndDuplicates | src/tethercore_engine/memory_graph/chroma_store.py:82 | `tags_str` depends only on which tags occur, not on their order or repetition |
| TagCodec.DecodeTags | src/tethercore_engine/memory_graph/chroma_store.py:95-96 | `""` decodes to `[]`; every decoded tag is non-empty and free of ',' |
| TagCodec.DecodeJoin | src/tethercore_engine/memory_graph/chroma_store.py:96 | splitting a ','-joined list of non-empty comma-free tags and dropping empty pieces gives the list back |
| TagCodec.TagsRoundTrip | src/tethercore_engine/memory_graph/chroma_store.py:82-96 | for tags that are non-empty and comma-free, decode(encode(t)) is the sorted distinct tags, and encoding that again gives the same `tags_str` |
| TagCodec.SortedDistinctFixed | src/tethercore_engine/memory_graph/chroma_store.py:222 | re-encoding tags read back from the store does not reorder them |
| ChromaStore.EchoToChromaDoc | src/tethercore_engine/memory_graph/chroma_store.py:73-89 | the document keeps the id and the content; the metadata holds the user and the encoded tags |
| ChromaStore.ChromaDocToEcho | src/tethercore_engine/memory_graph/chroma_store.py:91-106 | the echo keeps the document id, never carries metadata, has only non-empty comma-free tags, empty content when none is stored, and the defaults for user, tags and times when no metadata is stored |
| ChromaStore.DecodeDefaults | src/tethercore_engine/memory_graph/chroma_store.py:91-106 | with nothing stored, the echo has the given id, empty content, no tags, user "unknown_user", both timestamps `now` and empty metadata |
| ChromaStore.StoredEchoRoundTrip | src/tethercore_engine/memory_graph/chroma_store.py:108-122 | for an echo whose tags are non-empty and free of ',', `add_echo` returns the echo it stored, except that the tags are sorted and deduplicated and the metadata map is dropped |
| ChromaStore.WhereFilter | src/tethercore_engine/memory_graph/chroma_store.py:148-161 | the `where` filter is `{"user_id": u}` exactly when filters are given and their user id is non-empty, and otherwise absent |
| ChromaStore.WhereFilterUsesOnlyUser | src/tethercore_engine/memory_graph/chroma_store.py:148-161 | the tag, date and content filters are ignored: filters with the same user id query alike |
| ChromaStore.MergeUpdate | src/tethercore_engine/memory_graph/chroma_store.py:202-215 | an update missing the `content` or `user_id` key succeeds iff the echo exists, and each of content, user and tags is the update's value (null stays null) or, when the key is missing, the stored one; an update with both keys always succeeds, takes content and user as given (null included), and without a `tags` key has no tags |
| ChromaStore.UpdateEcho | src/tethercore_engine/memory_graph/chroma_store.py:198-233 | an update returns an echo iff the merge succeeds and writes no null content, user or `created_at`; that echo keeps the id, carries the merged content and user, `created_at` from the update or now, and `updated_at` now; given storable tags come back sorted and deduplicated, and null tags come back empty |
| ChromaStore.PartialUpdateFallsBack | src/tethercore_engine/memory_graph/chroma_store.py:202-223 | a partial update holding no null content, user or `created_at` keeps the stored content, user and tags where the update does not mention them; null tags clear them; `updated_at` becomes now |
| ChromaStore.PartialUpdateOfMissingEcho | src/tethercore_engine/memory_graph/chroma_store.py:205-207 | a partial update of a missing echo returns `None` |
| ChromaStore.FullUpdateReplaces | src/tethercore_engine/memory_graph/chroma_store.py:212-222 | an update with content and user ignores the stored echo; without a `tags` key the tags become empty |
| ChromaStore.NullFieldFailsUpdate | src/tethercore_engine/memory_graph/chroma_store.py:202-233 | a `content` key holding null next to a `user_id` key is a full replacement with null content, not a fall-back; any null content, user or `created_at` makes the update return `None` |
| Consent.Grant | src/tethercore_engine/consent_engine/service.py:66-83 | a grant touches only the granting user; their list ends with a fresh active record for the pair, holding exactly the granted actions and stamped now |
| Consent.GrantReplacesPair | src/tethercore_engine/consent_engine/service.py:75-83 | afterwards the user holds exactly one record for the pair, the last one; every other pair's records are unchanged and in the same order |
| Consent.WithoutKeepsOtherPairs | src/tethercore_engine/consent_engine/service.py:79-82 | dropping one pair's records keeps the records of every other pair, in order |
| Consent.AnyPermits | src/tethercore_engine/consent_engine/service.py:123-134 | the loop answers true iff some record names the requester and resource, lists the action and is active |
| Consent.Check | src/tethercore_engine/consent_engine/service.py:116-134 | `check_consent` is true iff some record of the user permits the action; an unknown user gets false |
| Consent.CheckAfterGrant | src/tethercore_engine/consent_engine/service.py:75-134 | after granting A, the pair is allowed exactly the actions in A; other pairs and other users are answered as before |
| Consent.RevokeRecords | src/tethercore_engine/consent_engine/service.py:142-163 | the revised list holds only active records, and holds exactly the active results of revising each stored record |
| Consent.Revoke | src/tethercore_engine/consent_engine/service.py:136-165 | an unknown user is a no-op; other users are untouched; the user's list holds only active records afterwards |
| Consent.RevokeAll | src/tethercore_engine/consent_engine/service.py:146-163 | revoking without an action list removes every record of the pair, so every check on it is false |
| Consent.RevokeSubset | src/tethercore_engine/consent_engine/service.py:150-163 | after revoking S, the pair allows `a` iff it did before and `a` is not in S |
| Consent.RevokeSubsetRecords | src/tethercore_engine/consent_engine/service.py:150-163 | every remaining record of the pair has a non-empty action set disjoint from S; each record left with actions is kept, minus S |
| Consent.RevokeRecordsKeepsOtherPairs | src/tethercore_engine/consent_engine/service.py:144-163 | revoking one pair leaves an all-active list's records of other pairs as they were, in order |
| Consent.RevokeKeepsOtherPairs | src/tethercore_engine/consent_engine/service.py:144-163 | the same at the level of the store |
| Consent.RecordDenial | src/tethercore_engine/consent_engine/service.py:98-113 | recording a denial leaves the store as it was |
| Consent.RequestConsent | src/tethercore_engine/consent_engine/service.py:56-63 | approved iff the resource contains "memory_graph" and the actions include "read"; approval grants all requested actions, denial changes nothing |
| Consent.ApprovedRequestAllowsRead | src/tethercore_engine/consent_engine/service.py:56-59 | after an approved request the requester may read, and may do exactly the requested actions |
| Consent.GetUserConsents | src/tethercore_engine/consent_engine/service.py:168-170 | lists exactly the user's active records |
| Consent.GetUserConsentsReturnsAll | src/tethercore_engine/consent_engine/service.py:168-170 | when every stored record is active, listing returns the whole stored list |
| Consent.GrantPreservesAllActive | src/tethercore_engine/consent_engine/service.py:68-83 | a grant keeps every stored record active |
| Consent.RevokePreservesAllActive | src/tethercore_engine/consent_engine/service.py:160-163 | a revoke keeps every stored record active |
| Consent.RunKeepsAllActive | src/tethercore_engine/consent_engine/service.py:39-170 | any sequence of requests, grants, revokes and denials keeps every record active, so listing returns all of a user's records |
| Consent.RunFromEmpty | src/tethercore_engine/consent_engine/service.py:33 | from the empty store a fresh process starts with, the invariant holds after any sequence of operations |
| Manifest.ValidateAgentId | src/tethercore_engine/agent_runtime/manifest_parser.py:49-54 | as written: accepted iff alphanumeric or containing '_' or '-'; an accepted id is lower-cased |
| Manifest.ValidateAgentIdIdempotent | src/tethercore_engine/agent_runtime/manifest_parser.py:52-54 | applied to its own output, either validator returns that output again |
| Manifest.SpacedIdWithUnderscoreAccepted | src/tethercore_engine/agent_runtime/manifest_parser.py:51-53 | the written check accepts "my agent_1", which contains a space; the intended check rejects it |
| Manifest.SpacedExampleRejected | src/tethercore_engine/agent_runtime/manifest_parser.py:137-149 | "invalid agent id with spaces" is rejected by both checks |
| Manifest.ValidateAgentIdIntended | src/tethercore_engine/agent_runtime/manifest_parser.py:51-54 | accepted iff non-empty and made only of letters, digits, '_' and '-'; the result is the lower-cased id, itself valid |
| Manifest.IntendedImpliesAsWritten | src/tethercore_engine/agent_runtime/manifest_parser.py:52-54 | every id the intended check accepts, the written one accepts with the same result |
| Manifest.ExtraKeysIgnored | src/tethercore_engine/agent_runtime/manifest_parser.py:27-47 | keys outside the declared manifest fields do not affect the outcome |
| Manifest.ManifestOf | src/tethercore_engine/agent_runtime/manifest_parser.py:27-54 | a document is accepted only when it is a mapping whose `agent_id` is a string the validator accepts, with the validator's result as the id, and whose `version`, `name` and `runtime` have their declared types |
| Manifest.MinimalManifest | src/tethercore_engine/agent_runtime/manifest_parser.py:27-47 | a mapping with only an id the validator accepts, a version, a name and a runtime type is accepted with the validated id, and every other field takes its declared default |
| Manifest.FormatOf | src/tethercore_engine/agent_runtime/manifest_parser.py:69-75 | ".yaml" and ".yml" choose YAML; otherwise ".json" chooses JSON; anything else is unsupported |
| Manifest.FormatExamples | src/tethercore_engine/agent_runtime/manifest_parser.py:69-75 | the dispatch on concrete paths, including ".toml" and a bare "yaml" being unsupported |
| Manifest.ParseManifest | src/tethercore_engine/agent_runtime/manifest_parser.py:57-86 | as written: a missing file, an unsupported extension or a syntax error yields `None`; a read document yields a manifest iff it passes the model check; a parsed manifest's version, name and runtime are the document's, its id is the document's `agent_id` after `agent_id_format`, and passes that check unchanged |
| Manifest.ReadDocument | src/tethercore_engine/agent_runtime/manifest_parser.py:67-83 | a missing file or an unsupported extension reads nothing; ".yaml"/".yml" files go to the YAML reader, ".json" files to the JSON reader |
| Manifest.ParseManifestIntended | src/tethercore_engine/agent_runtime/manifest_parser.py:51-86 | the parse with the intended id check: the same failures, acceptance iff the read document passes the model check, the document's version, name, runtime and validated id, and every parsed id is made only of letters, digits, '_' and '-' |
| Manifest.IntendedParseAgrees | src/tethercore_engine/agent_runtime/manifest_parser.py:52-77 | whatever the intended parse accepts, the parse as written accepts with the same manifest |
| Manifest.UnreadableFileRejected | src/tethercore_engine/agent_runtime/manifest_parser.py:81-83 | a syntax error in the file yields `None` rather than raising |
| Manifest.InvalidExampleRejected | src/tethercore_engine/agent_runtime/manifest_parser.py:137-149 | a YAML manifest whose `agent_id` is "invalid agent id with spaces" parses to `None` under both checks, whatever else it holds |
| Manifest.MinimalFileAccepted | src/tethercore_engine/agent_runtime/manifest_parser.py:67-77 | a minimal well-typed manifest whose id passes `agent_id_format` is read from a YAML or a JSON file alike, with the id lower-cased |
| Manifest.MinimalFileAcceptedIntended | src/tethercore_engine/agent_runtime/manifest_parser.py:51-77 | with the intended id check, a minimal well-typed manifest with a valid id is read from a YAML or a JSON file alike, with the id lower-cased |
| Manifest.SpacedIdManifestAccepted | src/tethercore_engine/agent_runtime/manifest_parser.py:52-77 | a YAML manifest with `agent_id: "my agent_1"` is returned by the parse as written, id included, and rejected by the intended parse |
| FocusMind.Setup | src/tethercore_engine/agents/examples/focus_mind/agent.py:9-14 | no current task; the duration is the custom config's `default_focus_duration_minutes` when present, else 25 |
| FocusMind.CommandOf | src/tethercore_engine/agents/examples/focus_mind/agent.py:26-60 | on the lower-cased description, start wins over get-current, which wins over break; anything else falls through |
| FocusMind.Execute | src/tethercore_engine/agents/examples/focus_mind/agent.py:16-65 | only the start branch changes state, and a start reply is given exactly when the start phrase occurs |
| FocusMind.StartSetsTask | src/tethercore_engine/agents/examples/focus_mind/agent.py:26-42 | the start branch never reaches its IndexError handler; the task is the whitespace- then quote-stripped text after the first occurrence of the phrase; the stored duration is unchanged, and the reply's duration is `duration_minutes` when given, else the stored one |
| FocusMind.TaskIsLowerAndTrimmed | src/tethercore_engine/agents/examples/focus_mind/agent.py:29 | the recorded task has no upper-case letters and neither starts nor ends with a quote |
| FocusMind.CaseInsensitive | src/tethercore_engine/agents/examples/focus_mind/agent.py:26-60 | descriptions equal up to case select the same branch and give the same result |
| FocusMind.GetCurrentReports | src/tethercore_engine/agents/examples/focus_mind/agent.py:44-48 | get-current changes nothing; it reports the task when non-empty, else "No active focus task." |
| FocusMind.BreakAndFallbackKeepState | src/tethercore_engine/agents/examples/focus_mind/agent.py:50-65 | the break and fallback branches keep the current task; the break reply is the language-model placeholder's text |
| FocusMind.CurrentPhraseSelectsCurrent | src/tethercore_engine/agents/examples/focus_mind/agent.py:44 | the description "get current focus task" selects the get-current branch |
| FocusMind.StartThenGet | src/tethercore_engine/agents/examples/focus_mind/agent.py:29-46 | starting a session on a non-empty task and then asking for the current task reports that task |
| CalendarMind.Setup | src/tethercore_engine/agents/examples/calendar_mind/agent.py:11-16 | a set-up agent has no events |
| CalendarMind.CommandOf | src/tethercore_engine/agents/examples/calendar_mind/agent.py:26-60 | "add event" is looked for first, then either list phrase, on the lower-cased description |
| CalendarMind.AddEvent | src/tethercore_engine/agents/examples/calendar_mind/agent.py:26-58 | the add succeeds iff the start time is truthy and parses, the name (default "Unnamed Event") is a truthy string, and the end time, when truthy, parses, or else the default end one hour later fits before `datetime.max`; a successful add stores exactly one more event; a rejected add stores nothing |
| CalendarMind.DefaultEndOverflowFails | src/tethercore_engine/agents/examples/calendar_mind/agent.py:37-58 | without an end time, a start less than an hour before `datetime.max` makes the default end overflow: the add fails and nothing is stored |
| CalendarMind.AddRejectedIff | src/tethercore_engine/agents/examples/calendar_mind/agent.py:30-35 | rejected, with nothing changed, iff `start_time` is missing or false or the name (default "Unnamed Event") is false |
| CalendarMind.ParseFailureKeepsEvents | src/tethercore_engine/agents/examples/calendar_mind/agent.py:37-58 | a start or end time that does not parse gives an error and stores nothing |
| CalendarMind.AddAppendsOne | src/tethercore_engine/agents/examples/calendar_mind/agent.py:30-56 | a successful add keeps the old events and appends one, with id `str(old count + 1)` (also the reply's id), the name as summary, the parsed start, and an end one hour later unless `end_time` is given |
| CalendarMind.ExecuteKeepsNumbering | src/tethercore_engine/agents/examples/calendar_mind/agent.py:41-47 | every task keeps event ids numbered "1", "2", ... in list order |
| CalendarMind.IdsDistinct | src/tethercore_engine/agents/examples/calendar_mind/agent.py:41 | hence no two stored events share an id |
| CalendarMind.ListEvents | src/tethercore_engine/agents/examples/calendar_mind/agent.py:60-73 | the list reply is "Your calendar is empty." iff there are no events, and otherwise holds all events in insertion order |
| CalendarMind.ListReturnsAll | src/tethercore_engine/agents/examples/calendar_mind/agent.py:60-73 | listing changes nothing and ignores the date parameter |
| CalendarMind.Execute | src/tethercore_engine/agents/examples/calendar_mind/agent.py:18-79 | only the add branch changes the events |
| CalendarMind.AddCheckedFirst | src/tethercore_engine/agents/examples/calendar_mind/agent.py:26-60 | a description containing "add event" always takes the add branch, even if it also contains a list phrase |
| CalendarMind.CaseInsensitive | src/tethercore_engine/agents/examples/calendar_mind/agent.py:26-60 | descriptions equal up to case give the same result |
| CalendarMind.NonTextNameStoredButFails | src/tethercore_engine/agents/examples/calendar_mind/agent.py:37-58 | with any truthy name that is not a string and times that parse (without an end, a start at least an hour before `datetime.max`), the event is appended with that name before `.replace` raises, so the reply is an error although the event was added |

## Left out

- TetherChain: `service.py` uses `BaseModel` and `Field` at lines 9-14 but imports them only inside the `__main__` block at line 185, so as written the module raises `NameError` on import and no service is ever built. The model assumes the `from pydantic import BaseModel, Field` that the comment at line 9 names.
- File and network I/O, `print`, locking and concurrency are not modelled. The log file is a value; a failed write is the `writeOk` flag.
- The clock (`datetime.now`), `uuid4`, ISO-8601 formatting and `datetime.fromisoformat` are parameters. Times are whole minutes between `datetime.min` and `datetime.max`; seconds, microseconds and time zones are not modelled.
- SHA-256 and key-sorted JSON serialisation are not modelled. The hash is a parameter, and each ledger `details` value is its JSON text.
- Decoding a log line is abstracted. The model assumes that reading back a written entry gives that entry.
- The Chroma client calls (`add`, `get`, `upsert`, `delete`, `query`) are not modelled, nor are `limit` and `offset` in `list_echos`. `ChromaStore.UpdateEcho` assumes the upsert stores any record free of nulls and that reading the echo back returns what was written.
- The YAML and JSON readers are parameters. Documents with non-string keys are not represented.
- Pydantic's lax coercions are not modelled: a string field accepts only a string, and an integer field only a whole number.
- Character classes, `lower()` and `strip()` use ASCII only. Python's Unicode rules for `isalnum` and `lower` are not modelled.
- The placeholder helpers are not modelled: the memory, ledger-logging and language-model helpers of the agents, and the ledger calls commented out in the consent engine. The only exception is the language-model text that appears in FocusMind's break reply.
- FocusMind fallback: the reply's language-model text quotes Python's `repr` of the parameters. The model reports only `NotHandled`.
- CalendarMind: the success message text is not modelled. `start`/`end` keep the parsed time rather than its ISO text.
- Consent.ConsentRecord: `actions_granted` is a set. Its list order and duplicates are not kept, because the code reads only membership and emptiness, and revoking rebuilds it from a set. `actions_denied` is always empty and is not represented.
- ChromaStore.UpdateEcho: assumes the vector store refuses a record whose document, `user_id` or `created_at` is null, so the handler returns `None`. The store's own validation is not part of this model.
- ChromaStore.PartialUpdateFallsBack: states that the tags are kept only for stored tags that are storable and already sorted. Other stored tags come back re-encoded.
- Base.PageBounds: bounds the page length only for `limit >= 0`. A negative `limit` is a negative stop index in Python, which can return more than zero items.
- TetherChain.AddEntry: assumes the log's last line ends with a newline. If it does not, after a crash mid-write or a hand edit, the source glues the new JSON onto that line. The merged line is then skipped as undecodable, and a restart finds no tip. The model always appends the entry as a line of its own.
- The consent store: `_consent_db` is a class attribute (`consent_engine/service.py:33`), so all `ConsentEngineService` instances share one store, and a new service does not start empty. The model passes the store explicitly as a value. Sharing appears as every caller using the same `Db`.
- TetherChain.StrictBreak: models the hash recomputation that the code leaves commented out, as an extension rather than source behaviour.

## Findings

| source | as written | input that shows it | evidently intended | confidence | as-written member | corrected member |
|---|---|---|---|---|---|---|
| src/tethercore_engine/tether_chain/service.py:151-156 | verification walks the result of `get_log_entries`, which is newest first, and expects the first entry it sees to have no previous hash | any log written by two successful `add_entry` calls | walk the entries oldest first, as the loop's comment and the note at line 223 assume, so every appended chain passes | high; not executed | TetherChain.VerifyAsWritten, TetherChain.NewestFirstRejectsChain | TetherChain.VerifyChainIntegrity, TetherChain.AppendedLogVerifies |
| src/tethercore_engine/tether_chain/service.py:140-153 | a log record that is JSON but not an entry makes the listing swallow the exception and return `[]`; verification then reports an intact chain | any log whose last line is `42`, or one among the newest 1,000,000 lines holding an object that is not an entry | a record that cannot be read fails verification | medium; not executed | TetherChain.VerifyAsWritten, TetherChain.UnreadableRecordPassesAsWritten | TetherChain.VerifyChainIntegrity |
| src/tethercore_engine/agent_runtime/manifest_parser.py:52-53 | `agent_id` is rejected only when it is not alphanumeric and has neither '_' nor '-' | `agent_id: "my agent_1"` is accepted | ids made only of letters, digits, '_' and '-', as the error message and the "no spaces" comment say | high; not executed | Manifest.ValidateAgentId, Manifest.SpacedIdWithUnderscoreAccepted, Manifest.ParseManifest, Manifest.SpacedIdManifestAccepted | Manifest.ValidateAgentIdIntended, Manifest.IntendedImpliesAsWritten, Manifest.ParseManifestIntended, Manifest.IntendedParseAgrees |

=== FILE: base.dfy ===
/** Small value types and sequence helpers shared by every module of the model. */
module Base {

  /** Python's `Optional[T]`: `None` or a present value. */
  datatype Option<T> = None | Some(value: T) {
    function GetOr(default: T): T {
      match this
      case Some(v) => v
      case None => default
    }
  }

  /** An operation that either produces a value or raises an error. */
  datatype Result<T, E> = Ok(value: T) | Err(error: E)

  /** The elements of `s` in the opposite order. */
  function Reverse<T>(s: seq<T>): (r: seq<T>)
    ensures |r| == |s|
    ensures forall i :: 0 <= i < |s| ==> r[i] == s[|s| - 1 - i]
  {
    if |s| == 0 then [] else Reverse(s[1..]) + [s[0]]
  }

  lemma ReverseAppend<T>(a: seq<T>, b: seq<T>)
    ensures Reverse(a + b) == Reverse(b) + Reverse(a)
  {
    assert |Reverse(a + b)| == |Reverse(b) + Reverse(a)|;
    forall i | 0 <= i < |a + b|
      ensures Reverse(a + b)[i] == (Reverse(b) + Reverse(a))[i]
    {
      if i < |b| {
        assert (Reverse(b) + Reverse(a))[i] == Reverse(b)[i];
      } else {
        assert (Reverse(b) + Reverse(a))[i] == Reverse(a)[i - |b|];
      }
    }
  }

  /** A sequence is empty exactly when nothing is in it. */
  lemma EmptyIffNoMember<T>(s: seq<T>)
    ensures s == [] <==> forall x :: x !in s
  {
    if s != [] {
      assert s[0] in s;
    }
  }

  lemma ReverseReverse<T>(s: seq<T>)
    ensures Reverse(Reverse(s)) == s
  {
  }

  /** Where Python puts a slice bound `i` for a sequence of length `n`:
      negative bounds count from the end, and both are clamped to `[0, n]`. */
  function SliceIndex(i: int, n: nat): (k: nat)
    ensures k <= n
    ensures 0 <= i <= n ==> k == i
  {
    if i < 0 then (if n + i < 0 then 0 else n + i)
    else if i > n then n
    else i
  }

  /** Python's `s[start:stop]` with step 1. */
  function PySlice<T>(s: seq<T>, start: int, stop: int): seq<T> {
    var lo := SliceIndex(start, |s|);
    var hi := SliceIndex(stop, |s|);
    if lo < hi then s[lo..hi] else []
  }

  /** A page `s[offset : offset + limit]` with a non-negative `limit` never
      holds more than `limit` items, whatever the sign of `offset`; for
      non-negative bounds it is the ordinary sub-sequence starting at `offset`.
      (A negative `limit` is a negative stop index in Python: `s[0:-1]` drops
      the last item, so no bound of that kind holds for it.) */
  lemma PageBounds<T>(s: seq<T>, offset: int, limit: int)
    ensures 0 <= limit ==> |PySlice(s, offset, offset + limit)| <= limit
    ensures 0 <= offset && 0 <= limit ==>
      PySlice(s, offset, offset + limit) ==
        (if offset >= |s| then [] else s[offset..if offset + limit > |s| then |s| else offset + limit])
    ensures forall x :: x in PySlice(s, offset, offset + limit) ==> x in s
  {
    var n := |s|;
    var lo := SliceIndex(offset, n);
    var hi := SliceIndex(offset + limit, n);
    if lo < hi {
      // `hi - lo` can only exceed the distance between the raw bounds when
      // clamping moved `lo` down, which requires a negative start that the
      // end offset `n + offset` already pays for.
      if offset < 0 {
        assert lo >= n + offset;
        if offset + limit < 0 {
          assert hi <= n + offset + limit;
        } else {
          assert hi <= offset + limit && offset + limit <= limit;
          assert hi <= n;
        }
      }
    }
  }
}

=== FILE: calendar_mind.dfy ===
/** The CalendarMind example agent (agents/examples/calendar_mind/agent.py):
    an in-memory list of events that "add event" appends to and "what's on
    my calendar" / "list events" reads. Instants are whole minutes since
    0001-01-01T00:00, bounded like Python's `datetime`, and
    `datetime.fromisoformat` is a parameter that fails with `None`. */
module CalendarMind {
  import opened Base
  import opened Strings
  import opened Values

  /** The minute of `datetime.max` (9999-12-31T23:59): 3652058 days of
      1440 minutes after `datetime.min`, plus 1439. */
  const MaxTime := 3652058 * 1440 + 1439

  /** An instant a Python `datetime` can hold. */
  type Time = t: int | 0 <= t <= MaxTime

  /** A parser of ISO-8601 text, partial like `datetime.fromisoformat`. */
  type IsoParser = string -> Option<Time>

  /** One stored event. `summary` and `description` are whatever the
      parameters held. */
  datatype Event = Event(id: string, summary: Json, start: Time, end: Time, description: Json)

  datatype CalendarState = CalendarState(events: seq<Event>)

  /** `setup`: no events. */
  function Setup(): (s: CalendarState)
    ensures |s.events| == 0
  {
    CalendarState([])
  }

  const AddPhrase := "add event"
  const ListPhrases: seq<string> := ["what's on my calendar", "list events"]
  const DefaultName := JStr("Unnamed Event")
  /** `timedelta(hours=1)` in minutes. */
  const OneHour := 60

  datatype Reply =
    | Added(eventId: string)
    /** The name or `start_time` is missing or false. */
    | AddRejected
    /** An exception inside the add branch. */
    | AddFailed
    | CalendarEmpty
    | Events(events: seq<Event>)
    | NotHandled

  datatype Command = AddCmd | ListCmd | OtherCmd

  function CommandOf(description: string): (c: Command)
    ensures c == AddCmd <==> Contains(Lower(description), AddPhrase)
    ensures c == ListCmd <==>
      !Contains(Lower(description), AddPhrase) &&
      (Contains(Lower(description), ListPhrases[0]) || Contains(Lower(description), ListPhrases[1]))
  {
    var d := Lower(description);
    if Contains(d, AddPhrase) then AddCmd
    else if Contains(d, ListPhrases[0]) || Contains(d, ListPhrases[1]) then ListCmd
    else OtherCmd
  }

  /** `datetime.fromisoformat(v)`: only a string can be parsed; anything else
      raises `TypeError`. */
  function ParseTime(parse: IsoParser, v: Json): Option<Time> {
    if v.JStr? then parse(v.s) else None
  }

  /** The add branch. Without an end time the event lasts an hour; adding
      the hour past `datetime.max` raises `OverflowError`, caught as a
      failure before anything is stored. The event is appended before the memory helper is
      called with `event_name.replace(...)`, which raises for a name that is
      not a string: such an event is stored although the reply is an error. */
  function AddEvent(s: CalendarState, params: Params, parse: IsoParser): (r: (CalendarState, Reply))
    ensures r.1.Added? ==> |r.0.events| == |s.events| + 1
    ensures r.1.AddRejected? ==> r.0 == s
    ensures r.1.Added? <==>
      && TruthyOpt(Get(params, "start_time")) && Truthy(GetOr(params, "name", DefaultName))
      && GetOr(params, "name", DefaultName).JStr?
      && ParseTime(parse, params["start_time"]).Some?
      && (TruthyOpt(Get(params, "end_time")) ==> ParseTime(parse, params["end_time"]).Some?)
      && (!TruthyOpt(Get(params, "end_time")) ==> ParseTime(parse, params["start_time"]).value + OneHour <= MaxTime)
  {
    var name := GetOr(params, "name", DefaultName);
    var startText := Get(params, "start_time");
    var endText := Get(params, "end_time");
    if !TruthyOpt(startText) || !Truthy(name) then (s, AddRejected)
    else match ParseTime(parse, startText.value)
      case None => (s, AddFailed)
      case Some(start) =>
        var end := if TruthyOpt(endText) then ParseTime(parse, endText.value)
                   else if start + OneHour <= MaxTime then Some(start + OneHour)
                   else None;
        match end
        case None => (s, AddFailed)
        case Some(e) =>
          var event := Event(NatToString(|s.events| + 1), name, start, e, GetOr(params, "description", JStr("")));
          var s' := s.(events := s.events + [event]);
          if name.JStr? then (s', Added(event.id)) else (s', AddFailed)
  }

  /** The list branch: the date filter is read but not applied. */
  function ListEvents(s: CalendarState, params: Params): (r: Reply)
    ensures r == CalendarEmpty <==> |s.events| == 0
    ensures r.Events? ==> r.events == s.events
  {
    if |s.events| == 0 then CalendarEmpty else Events(s.events)
  }

  /** `execute_task(description, parameters)` */
  function Execute(s: CalendarState, description: string, parameters: Option<Params>, parse: IsoParser): (r: (CalendarState, Reply))
    ensures CommandOf(description) != AddCmd ==> r.0 == s
  {
    var params := OrEmpty(parameters);
    match CommandOf(description)
    case AddCmd => AddEvent(s, params, parse)
    case ListCmd => (s, ListEvents(s, params))
    case OtherCmd => (s, NotHandled)
  }

  // ---------------------------------------------------------------- properties

  /** The add branch turns a request away, unchanged, exactly when the
      start time is missing or false or the name (default "Unnamed Event")
      is false. */
  lemma AddRejectedIff(s: CalendarState, params: Params, parse: IsoParser)
    ensures AddEvent(s, params, parse).1 == AddRejected <==>
      !TruthyOpt(Get(params, "start_time")) || !Truthy(GetOr(params, "name", DefaultName))
    ensures AddEvent(s, params, parse).1 == AddRejected ==> AddEvent(s, params, parse).0 == s
  {
  }

  /** A start or end text that does not parse fails the add and stores nothing. */
  lemma ParseFailureKeepsEvents(s: CalendarState, params: Params, parse: IsoParser)
    requires TruthyOpt(Get(params, "start_time")) && Truthy(GetOr(params, "name", DefaultName))
    requires ParseTime(parse, params["start_time"]).None? ||
             (TruthyOpt(Get(params, "end_time")) && ParseTime(parse, params["end_time"]).None?)
    ensures AddEvent(s, params, parse) == (s, AddFailed)
  {
  }

  /** A start within the last hour `datetime` can hold and no end time:
      the default end overflows, the add fails and nothing is stored. */
  lemma DefaultEndOverflowFails(s: CalendarState, params: Params, parse: IsoParser)
    requires TruthyOpt(Get(params, "start_time")) && Truthy(GetOr(params, "name", DefaultName))
    requires !TruthyOpt(Get(params, "end_time"))
    requires ParseTime(parse, params["start_time"]).Some?
    requires ParseTime(parse, params["start_time"]).value + OneHour > MaxTime
    ensures AddEvent(s, params, parse) == (s, AddFailed)
  {
  }

  /** A successful add appends exactly one event, numbered one past the old
      count, named by the parameter or "Unnamed Event", ending an hour after
      its start when no end is given. */
  lemma AddAppendsOne(s: CalendarState, params: Params, parse: IsoParser)
    requires AddEvent(s, params, parse).1.Added?
    ensures var (s', reply) := AddEvent(s, params, parse);
      && s'.events[..|s.events|] == s.events
      && var e := s'.events[|s.events|];
      && e.id == NatToString(|s.events| + 1) == reply.eventId
      && e.summary == GetOr(params, "name", DefaultName)
      && Some(e.start) == ParseTime(parse, params["start_time"])
      && (!TruthyOpt(Get(params, "end_time")) ==> e.end == e.start + OneHour)
      && (TruthyOpt(Get(params, "end_time")) ==> Some(e.end) == ParseTime(parse, params["end_time"]))
  {
  }

  /** Event ids are "1", "2", ... in list order. */
  predicate NumberedInOrder(s: CalendarState) {
    forall i :: 0 <= i < |s.events| ==> s.events[i].id == NatToString(i + 1)
  }

  /** Every operation keeps the numbering, whatever its reply. */
  lemma ExecuteKeepsNumbering(s: CalendarState, description: string, parameters: Option<Params>, parse: IsoParser)
    requires NumberedInOrder(s)
    ensures NumberedInOrder(Execute(s, description, parameters, parse).0)
  {
  }

  /** Hence no two stored events share an id. */
  lemma IdsDistinct(s: CalendarState, i: int, j: int)
    requires NumberedInOrder(s)
    requires 0 <= i < j < |s.events|
    ensures s.events[i].id != s.events[j].id
  {
    if s.events[i].id == s.events[j].id {
      NatToStringInjective(i + 1, j + 1);
    }
  }

  /** Listing changes nothing, reports an empty calendar as such and
      otherwise returns every event in insertion order, whatever the date
      parameter says. */
  lemma ListReturnsAll(s: CalendarState, description: string, parameters: Option<Params>, parse: IsoParser)
    requires CommandOf(description) == ListCmd
    ensures Execute(s, description, parameters, parse).0 == s
    ensures Execute(s, description, parameters, parse).1 == (if |s.events| == 0 then CalendarEmpty else Events(s.events))
  {
  }

  /** The add phrase wins over the list phrases, and case does not matter. */
  lemma AddCheckedFirst(description: string)
    requires Contains(Lower(description), AddPhrase)
    ensures CommandOf(description) == AddCmd
  {
  }

  lemma CaseInsensitive(s: CalendarState, d1: string, d2: string, parameters: Option<Params>, parse: IsoParser)
    requires Lower(d1) == Lower(d2)
    ensures Execute(s, d1, parameters, parse) == Execute(s, d2, parameters, parse)
  {
  }

  /** An add whose name is truthy but not text stores the event, named by
      that value, and still reports a failure (given times that parse and,
      without an end, a start an hour or more before `datetime.max`). */
  lemma NonTextNameStoredButFails(s: CalendarState, params: Params, parse: IsoParser)
    requires "name" in params && !params["name"].JStr? && Truthy(params["name"])
    requires TruthyOpt(Get(params, "start_time")) && ParseTime(parse, params["start_time"]).Some?
    requires TruthyOpt(Get(params, "end_time")) ==> ParseTime(parse, params["end_time"]).Some?
    requires !TruthyOpt(Get(params, "end_time")) ==> ParseTime(parse, params["start_time"]).value + OneHour <= MaxTime
    ensures var (s', reply) := AddEvent(s, params, parse);
      && reply == AddFailed
      && |s'.events| == |s.events| + 1
      && s'.events[..|s.events|] == s.events
      && s'.events[|s.events|].summary == params["name"]
  {
  }
}

=== FILE: chroma_store.dfy ===
/** How the Chroma-backed memory store flattens an Echo's tag list into the
    single metadata string `tags_str` and reads it back
    (memory_graph/chroma_store.py). */
module TagCodec {
  import opened Base
  import opened Strings

  /** Strictly increasing in Python's string order: sorted, no duplicates. */
  predicate StrictlySorted(s: seq<string>) {
    forall i, j :: 0 <= i < j < |s| ==> Less(s[i], s[j])
  }

  /** Insert `x` into a strictly sorted list unless it is already there. */
  function Insert(x: string, s: seq<string>): (r: seq<string>)
    requires StrictlySorted(s)
    ensures StrictlySorted(r)
    ensures forall y :: y in r <==> y == x || y in s
  {
    if |s| == 0 then [x]
    else if x == s[0] then s
    else if Less(x, s[0]) then
      assert forall j :: 0 <= j < |s| ==> Less(x, s[j]) by {
        forall j | 0 < j < |s| ensures Less(x, s[j]) {
          LessTransitive(x, s[0], s[j]);
        }
      }
      [x] + s
    else
      LessTotal(x, s[0]);
      var rest := Insert(x, s[1..]);
      assert forall y :: y in rest ==> Less(s[0], y);
      [s[0]] + rest
  }

  /** `sorted(list(set(tags)))` */
  function SortedDistinct(tags: seq<string>): (r: seq<string>)
    ensures StrictlySorted(r)
    ensures forall y :: y in r <==> y in tags
  {
    if |tags| == 0 then []
    else
      var init := tags[..|tags| - 1];
      assert tags == init + [tags[|tags| - 1]];
      Insert(tags[|tags| - 1], SortedDistinct(init))
  }

  lemma LessAsymmetric(a: string, b: string)
    requires Less(a, b)
    ensures !Less(b, a) && a != b
  {
    LessIrreflexive(a);
    if Less(b, a) {
      LessTransitive(a, b, a);
    }
  }

  /** A strictly sorted list is determined by its elements. */
  lemma {:induction false} SortedUnique(a: seq<string>, b: seq<string>)
    requires StrictlySorted(a) && StrictlySorted(b)
    requires forall y :: y in a <==> y in b
    ensures a == b
    decreases |a|
  {
    SameElementsEmpty(a, b);
    if |a| > 0 {
      assert a[0] in b;
      assert |b| > 0 && b[0] in a;
      var k :| 0 <= k < |b| && b[k] == a[0];
      var m :| 0 <= m < |a| && a[m] == b[0];
      if k > 0 {
        // b[0] < b[k] = a[0] <= a[m] = b[0]
        if m > 0 {
          LessTransitive(b[0], a[0], a[m]);
        }
        LessIrreflexive(b[0]);
        assert false;
      }
      assert a[0] == b[0];
      forall y ensures y in a[1..] <==> y in b[1..] {
        if y in a[1..] {
          var i :| 1 <= i < |a| && a[i] == y;
          LessAsymmetric(a[0], a[i]);
          assert a[i] in a;
          var j :| 0 <= j < |b| && b[j] == y;
          assert j != 0;
          assert b[1..][j - 1] == y;
        }
        if y in b[1..] {
          var i :| 1 <= i < |b| && b[i] == y;
          LessAsymmetric(b[0], b[i]);
          assert b[i] in b;
          var j :| 0 <= j < |a| && a[j] == y;
          assert j != 0;
          assert a[1..][j - 1] == y;
        }
      }
      SortedUnique(a[1..], b[1..]);
      assert a == [a[0]] + a[1..] && b == [b[0]] + b[1..];
    }
  }

  /** Two lists with the same elements are both empty or both non-empty. */
  lemma SameElementsEmpty<T>(a: seq<T>, b: seq<T>)
    requires forall y :: y in a <==> y in b
    ensures |a| == 0 <==> |b| == 0
  {
    if |a| > 0 {
      assert a[0] in b;
    }
    if |b| > 0 {
      assert b[0] in a;
    }
  }

  /** Sorting and deduplicating a list that is already strictly sorted keeps it. */
  lemma SortedDistinctFixed(s: seq<string>)
    requires StrictlySorted(s)
    ensures SortedDistinct(s) == s
  {
    SortedUnique(SortedDistinct(s), s);
  }

  /** The `tags_str` of an echo: the distinct tags in sorted order joined
      with ',', or "" when the tags are missing or empty. */
  function EncodeTags(tags: Option<seq<string>>): (r: string)
    ensures tags.None? || tags.value == [] ==> r == ""
    ensures tags.Some? && tags.value != [] ==>
      exists s :: StrictlySorted(s) && (forall y :: y in s <==> y in tags.value) && r == Join(s, ',')
  {
    match tags
    case None => ""
    case Some(t) =>
      if |t| == 0 then ""
      else
        var s := SortedDistinct(t);
        assert StrictlySorted(s) && (forall y :: y in s <==> y in t);
        Join(s, ',')
  }

  function NonEmptyPieces(pieces: seq<string>): (r: seq<string>)
    ensures forall k :: 0 <= k < |r| ==> r[k] != "" && r[k] in pieces
    ensures (forall k :: 0 <= k < |pieces| ==> pieces[k] != "") ==> r == pieces
  {
    if |pieces| == 0 then []
    else (if pieces[0] == "" then [] else [pieces[0]]) + NonEmptyPieces(pieces[1..])
  }

  /** The tag list read back from `tags_str`: split on ',' and drop empty pieces. */
  function DecodeTags(tagsStr: string): (r: seq<string>)
    ensures tagsStr == "" ==> r == []
    ensures forall k :: 0 <= k < |r| ==> r[k] != "" && ',' !in r[k]
  {
    if tagsStr == "" then [] else NonEmptyPieces(Split(tagsStr, ','))
  }

  /** Tags that survive a round trip: non-empty and free of the separator. */
  predicate StorableTags(tags: seq<string>) {
    forall k :: 0 <= k < |tags| ==> tags[k] != "" && ',' !in tags[k]
  }

  /** The encoding depends only on which tags occur, not on their order or
      repetitions. */
  lemma EncodeIgnoresOrderAndDuplicates(t1: seq<string>, t2: seq<string>)
    requires forall y :: y in t1 <==> y in t2
    ensures EncodeTags(Some(t1)) == EncodeTags(Some(t2))
  {
    SortedUnique(SortedDistinct(t1), SortedDistinct(t2));
    if |t1| > 0 {
      assert t1[0] in t2;
    }
    if |t2| > 0 {
      assert t2[0] in t1;
    }
  }

  /** Decoding an encoding gives the sorted distinct tags, and encoding that
      again gives the same string. */
  lemma TagsRoundTrip(tags: seq<string>)
    requires StorableTags(tags)
    ensures DecodeTags(EncodeTags(Some(tags))) == SortedDistinct(tags)
    ensures EncodeTags(Some(DecodeTags(EncodeTags(Some(tags))))) == EncodeTags(Some(tags))
  {
    if |tags| > 0 {
      var r := SortedDistinct(tags);
      assert tags[0] in r;
      forall k | 0 <= k < |r| ensures r[k] != "" && ',' !in r[k] {
        assert r[k] in tags;
      }
      DecodeJoin(r);
      SortedDistinctFixed(r);
    }
  }

  /** Joining a non-empty list of storable tags and decoding gives them back. */
  lemma DecodeJoin(r: seq<string>)
    requires |r| > 0 && StorableTags(r)
    ensures DecodeTags(Join(r, ',')) == r
  {
    SplitJoin(r, ',');
    if |r| == 1 {
      assert Join(r, ',') == r[0];
    } else {
      assert Join(r, ',') == r[0] + [','] + Join(r[1..], ',');
    }
    assert Join(r, ',') != "";
  }
}

/** The pure parts of the Chroma-backed Echo store: the document layout,
    its decoding defaults, the `where` filter and the update merge. */
module ChromaStore {
  import opened Base
  import opened TagCodec

  /** A UTC instant; ISO-8601 texts are abstracted away. */
  type Time = int

  /** `EchoCreate` */
  datatype EchoCreate = EchoCreate(
    content: string,
    tags: Option<seq<string>>,
    userId: string,
    metadata: map<string, string>,
    createdAt: Time,
    updatedAt: Time)

  /** `Echo` */
  datatype Echo = Echo(
    id: string,
    content: string,
    tags: seq<string>,
    userId: string,
    metadata: map<string, string>,
    createdAt: Time,
    updatedAt: Time)

  /** The flat metadata stored beside a Chroma document; a key may be missing. */
  datatype ChromaMetadata = ChromaMetadata(
    userId: Option<string>,
    createdAt: Option<Time>,
    updatedAt: Option<Time>,
    tagsStr: Option<string>)

  datatype ChromaDoc = ChromaDoc(id: string, document: string, metadata: ChromaMetadata)

  /** `_echo_to_chroma_doc`: the echo's own `metadata` map is not stored. */
  function EchoToChromaDoc(echo: EchoCreate, echoId: string): (d: ChromaDoc)
    ensures d.id == echoId && d.document == echo.content
    ensures d.metadata.userId == Some(echo.userId)
    ensures d.metadata.tagsStr == Some(EncodeTags(echo.tags))
  {
    ChromaDoc(echoId, echo.content,
      ChromaMetadata(Some(echo.userId), Some(echo.createdAt), Some(echo.updatedAt), Some(EncodeTags(echo.tags))))
  }

  /** `_chroma_doc_to_echo`; `now` stands for `datetime.now` when a timestamp is missing. */
  function ChromaDocToEcho(docId: string, content: Option<string>, metadata: Option<ChromaMetadata>, now: Time): (r: Echo)
    ensures r.id == docId && r.metadata == map[]
    ensures forall k :: 0 <= k < |r.tags| ==> r.tags[k] != "" && ',' !in r.tags[k]
    ensures content.None? ==> r.content == ""
    ensures metadata.None? ==> r.tags == [] && r.userId == "unknown_user" && r.createdAt == now && r.updatedAt == now
  {
    var md := metadata.GetOr(ChromaMetadata(None, None, None, None));
    Echo(docId, content.GetOr(""), DecodeTags(md.tagsStr.GetOr("")),
         md.userId.GetOr("unknown_user"), map[], md.createdAt.GetOr(now), md.updatedAt.GetOr(now))
  }

  /** Decoding a record with nothing stored gives the defaults: empty content,
      no tags, user "unknown_user", both timestamps `now`, and the given id. */
  lemma DecodeDefaults(docId: string, now: Time)
    ensures ChromaDocToEcho(docId, None, None, now) == Echo(docId, "", [], "unknown_user", map[], now, now)
  {
  }

  /** What `add_echo` returns: the stored echo read back, with the tags sorted
      and deduplicated and the echo's metadata map dropped. */
  lemma StoredEchoRoundTrip(echo: EchoCreate, echoId: string, now: Time)
    requires echo.tags.Some? ==> StorableTags(echo.tags.value)
    ensures var d := EchoToChromaDoc(echo, echoId);
      ChromaDocToEcho(echoId, Some(d.document), Some(d.metadata), now)
        == Echo(echoId, echo.content, SortedDistinct(echo.tags.GetOr([])), echo.userId, map[],
                echo.createdAt, echo.updatedAt)
  {
    if echo.tags.Some? {
      TagsRoundTrip(echo.tags.value);
    }
  }

  // ------------------------------------------------------------ list filter

  /** `EchoFilter`; the store consults only `user_id`. */
  datatype EchoFilter = EchoFilter(
    tagsIncludeAny: Option<seq<string>>,
    tagsIncludeAll: Option<seq<string>>,
    startDate: Option<Time>,
    endDate: Option<Time>,
    userId: Option<string>,
    contentContains: Option<string>)

  /** The `where` argument of `list_echos`: `{"user_id": u}` when filters are
      given with a non-empty user id, otherwise no filter at all. */
  function WhereFilter(filters: Option<EchoFilter>): (w: Option<map<string, string>>)
    ensures w.Some? <==> filters.Some? && filters.value.userId.Some? && filters.value.userId.value != ""
    ensures w.Some? ==> w.value == map["user_id" := filters.value.userId.value]
  {
    match filters
    case None => None
    case Some(f) =>
      if f.userId.Some? && f.userId.value != "" then Some(map["user_id" := f.userId.value]) else None
  }

  /** The tag, date and content filters are ignored: two filters with the
      same user id query alike. */
  lemma WhereFilterUsesOnlyUser(f1: EchoFilter, f2: EchoFilter)
    requires f1.userId == f2.userId
    ensures WhereFilter(Some(f1)) == WhereFilter(Some(f2))
  {
  }

  // ------------------------------------------------------------ update

  /** One key of `echo_update_data`: missing, present with value `None`, or
      present with a value. */
  datatype Field<T> = Absent | Null | Given(value: T) {
    /** `data.get(key, default)`: the default only when the key is missing. */
    function Get(default: T): (r: Option<T>)
      ensures Absent? ==> r == Some(default)
      ensures Null? ==> r == None
      ensures Given? ==> r == Some(value)
    {
      match this
      case Absent => Some(default)
      case Null => None
      case Given(v) => Some(v)
    }
  }

  /** `echo_update_data`: the keys `update_echo` reads. */
  datatype EchoUpdate = EchoUpdate(
    content: Field<string>,
    userId: Field<string>,
    tags: Field<seq<string>>,
    createdAt: Field<Time>)

  /** The content, tags and owner an update hands to the upsert; `None` is a
      Python `None` taken from the update. */
  datatype Merged = Merged(content: Option<string>, tags: Option<seq<string>>, userId: Option<string>)

  /** The update is partial when `content` or `user_id` is missing as a key;
      a key present with value `None` does not make it partial. */
  predicate Partial(u: EchoUpdate) {
    u.content.Absent? || u.userId.Absent?
  }

  /** The merge rule of `update_echo`. A partial update fetches the existing
      echo and each of content, tags and user falls back to it (no existing
      echo: `None`); otherwise the update is a full replacement, read by
      subscript, and missing tags mean no tags. */
  function MergeUpdate(u: EchoUpdate, existing: Option<Echo>): (r: Option<Merged>)
    ensures Partial(u) ==> (r.Some? <==> existing.Some?)
    ensures !Partial(u) ==> r.Some?
    ensures r.Some? && !Partial(u) ==>
      && (r.value.content.Some? <==> u.content.Given?)
      && (r.value.userId.Some? <==> u.userId.Given?)
      && (u.tags.Absent? ==> r.value.tags == Some([]))
    ensures r.Some? && Partial(u) ==>
      && r.value.content == u.content.Get(existing.value.content)
      && r.value.userId == u.userId.Get(existing.value.userId)
      && r.value.tags == u.tags.Get(existing.value.tags)
  {
    if Partial(u) then
      match existing
      case None => None
      case Some(e) => Some(Merged(u.content.Get(e.content), u.tags.Get(e.tags), u.userId.Get(e.userId)))
    else
      Some(Merged(u.content.Get(""), u.tags.Get([]), u.userId.Get("")))
  }

  /** The record the upsert writes holds no `None`: content, user and
      `created_at` are all values. */
  predicate Writable(m: Merged, createdAt: Field<Time>) {
    m.content.Some? && m.userId.Some? && !createdAt.Null?
  }

  /** `update_echo(echo_id, data)` at time `now`. The upsert is taken to
      reject a record with a `None` document, user or `created_at`, and the
      handler then returns `None`; otherwise it stores the record and the
      store returns what was upserted. */
  function UpdateEcho(echoId: string, u: EchoUpdate, existing: Option<Echo>, now: Time): (r: Option<Echo>)
    ensures r.Some? <==> MergeUpdate(u, existing).Some? && Writable(MergeUpdate(u, existing).value, u.createdAt)
    ensures r.Some? ==>
      && r.value.id == echoId && r.value.metadata == map[]
      && Some(r.value.content) == MergeUpdate(u, existing).value.content
      && Some(r.value.userId) == MergeUpdate(u, existing).value.userId
      && Some(r.value.createdAt) == u.createdAt.Get(now) && r.value.updatedAt == now
    ensures r.Some? && u.tags.Given? && StorableTags(u.tags.value) ==> r.value.tags == SortedDistinct(u.tags.value)
    ensures r.Some? && u.tags.Null? ==> r.value.tags == []
  {
    match MergeUpdate(u, existing)
    case None => None
    case Some(m) =>
      if !Writable(m, u.createdAt) then None
      else
        GivenTagsRoundTrip(u.tags);
        var md := ChromaMetadata(m.userId, u.createdAt.Get(now), Some(now), Some(EncodeTags(m.tags)));
        Some(ChromaDocToEcho(echoId, m.content, Some(md), now))
  }

  /** The tags an update gives, when storable, read back sorted and deduplicated. */
  lemma GivenTagsRoundTrip(f: Field<seq<string>>)
    ensures f.Given? && StorableTags(f.value) ==> DecodeTags(EncodeTags(Some(f.value))) == SortedDistinct(f.value)
  {
    if f.Given? && StorableTags(f.value) {
      TagsRoundTrip(f.value);
    }
  }

  /** A partial update keeps every field it does not mention: content, user
      and (when the stored tags are storable) tags come from the existing echo. */
  lemma PartialUpdateFallsBack(echoId: string, u: EchoUpdate, e: Echo, now: Time)
    requires Partial(u)
    requires !u.content.Null? && !u.userId.Null? && !u.createdAt.Null?
    requires StorableTags(e.tags) && StrictlySorted(e.tags)
    ensures var r := UpdateEcho(echoId, u, Some(e), now);
      && r.Some?
      && r.value.id == echoId
      && Some(r.value.content) == u.content.Get(e.content)
      && Some(r.value.userId) == u.userId.Get(e.userId)
      && (u.tags.Absent? ==> r.value.tags == e.tags)
      && (u.tags.Null? ==> r.value.tags == [])
      && r.value.updatedAt == now
      && Some(r.value.createdAt) == u.createdAt.Get(now)
  {
    TagsRoundTrip(e.tags);
    SortedDistinctFixed(e.tags);
  }

  /** A partial update of an echo that does not exist returns `None`. */
  lemma PartialUpdateOfMissingEcho(echoId: string, u: EchoUpdate, now: Time)
    requires Partial(u)
    ensures UpdateEcho(echoId, u, None, now) == None
  {
  }

  /** A full update ignores the existing echo entirely; with no `tags` key the
      stored tags become empty rather than staying as they were. */
  lemma FullUpdateReplaces(echoId: string, u: EchoUpdate, existing: Option<Echo>, now: Time)
    requires u.content.Given? && u.userId.Given? && !u.createdAt.Null?
    ensures UpdateEcho(echoId, u, existing, now) == UpdateEcho(echoId, u, None, now)
    ensures UpdateEcho(echoId, u, existing, now).Some?
    ensures u.tags.Absent? ==> UpdateEcho(echoId, u, existing, now).value.tags == []
    ensures UpdateEcho(echoId, u, existing, now).value.content == u.content.value
    ensures UpdateEcho(echoId, u, existing, now).value.userId == u.userId.value
  {
  }

  /** A key present with value `None` is not a missing key: `content: None`
      next to a `user_id` makes a full replacement, not a fall-back to the
      existing echo, and a `None` in content, user or `created_at` fails the
      update even when the echo exists. */
  lemma NullFieldFailsUpdate(echoId: string, u: EchoUpdate, existing: Option<Echo>, now: Time)
    requires u.content.Null? || u.userId.Null? || u.createdAt.Null?
    ensures u.content.Null? && !u.userId.Absent? ==> MergeUpdate(u, existing).Some? && MergeUpdate(u, existing).value.content.None?
    ensures UpdateEcho(echoId, u, existing, now) == None
  {
  }
}

=== FILE: consent.dfy ===
/** The in-memory consent store (consent_engine/service.py): per user, a
    list of consent records, changed by grant and revoke and read by check.
    The store is one map shared by every service instance, as the class-level
    dictionary of the source is. */
module Consent {
  import opened Base
  import opened Strings

  /** A moment in UTC; the clock is a parameter. */
  type Time = int

  /** The `status` strings the service writes. */
  datatype Status = Active | Revoked

  /** `PermissionRequest` */
  datatype PermissionRequest = PermissionRequest(
    requesterId: string,
    resource: string,
    actions: seq<string>,
    justification: Option<string>)

  /** `ConsentRecord`. `actions_granted` is a list in the source, but the only
      things read from it are membership and emptiness, and revoking rebuilds
      it from a set, so it is a set here. `actions_denied` is always empty. */
  datatype ConsentRecord = ConsentRecord(
    userId: string,
    requesterId: string,
    resource: string,
    actionsGranted: set<string>,
    grantedAt: Time,
    status: Status,
    conditions: map<string, string>)

  /** `_consent_db`: user id to that user's records, oldest first. */
  type Db = map<string, seq<ConsentRecord>>

  function RecordsOf(db: Db, user: string): seq<ConsentRecord> {
    if user in db then db[user] else []
  }

  /** The record concerns this requester and resource. */
  predicate OfPair(r: ConsentRecord, requester: string, resource: string) {
    r.requesterId == requester && r.resource == resource
  }

  /** The record, on its own, allows `action`. */
  predicate Permits(r: ConsentRecord, requester: string, resource: string, action: string) {
    OfPair(r, requester, resource) && action in r.actionsGranted && r.status.Active?
  }

  predicate ActiveRecords(rs: seq<ConsentRecord>) {
    forall i :: 0 <= i < |rs| ==> rs[i].status.Active?
  }

  /** The store invariant: every stored record is active. */
  predicate AllActive(db: Db) {
    forall u :: u in db ==> ActiveRecords(db[u])
  }

  /** The records of one requester and resource, in stored order. */
  function PairRecords(rs: seq<ConsentRecord>, requester: string, resource: string): (r: seq<ConsentRecord>)
    ensures forall x :: x in r <==> x in rs && OfPair(x, requester, resource)
  {
    if |rs| == 0 then []
    else (if OfPair(rs[0], requester, resource) then [rs[0]] else []) + PairRecords(rs[1..], requester, resource)
  }

  lemma {:induction false} PairRecordsAppend(a: seq<ConsentRecord>, b: seq<ConsentRecord>, requester: string, resource: string)
    ensures PairRecords(a + b, requester, resource) == PairRecords(a, requester, resource) + PairRecords(b, requester, resource)
  {
    if |a| > 0 {
      assert (a + b)[1..] == a[1..] + b;
      PairRecordsAppend(a[1..], b, requester, resource);
    } else {
      assert a + b == b;
    }
  }

  // ---------------------------------------------------------------- grant

  /** The list comprehension of `grant_consent`: every record of other pairs,
      in order. */
  function Without(rs: seq<ConsentRecord>, requester: string, resource: string): (r: seq<ConsentRecord>)
    ensures forall x :: x in r <==> x in rs && !OfPair(x, requester, resource)
  {
    if |rs| == 0 then []
    else (if OfPair(rs[0], requester, resource) then [] else [rs[0]]) + Without(rs[1..], requester, resource)
  }

  /** Dropping one pair keeps the records of any other pair, in order. */
  lemma {:induction false} WithoutKeepsOtherPairs(rs: seq<ConsentRecord>, requester: string, resource: string,
                                                  q: string, s: string)
    requires q != requester || s != resource
    ensures PairRecords(Without(rs, requester, resource), q, s) == PairRecords(rs, q, s)
  {
    if |rs| > 0 {
      var head := if OfPair(rs[0], requester, resource) then [] else [rs[0]];
      PairRecordsAppend(head, Without(rs[1..], requester, resource), q, s);
      WithoutKeepsOtherPairs(rs[1..], requester, resource, q, s);
    }
  }

  /** `grant_consent(user, request, granted, conditions)` at time `now`: the
      user's records of the request's pair are replaced by one fresh active
      record at the end of the list. */
  function Grant(db: Db, user: string, req: PermissionRequest, granted: seq<string>,
                 conditions: Option<map<string, string>>, now: Time): (r: Db)
    ensures r.Keys == db.Keys + {user}
    ensures forall u :: u in db && u != user ==> r[u] == db[u]
    ensures |r[user]| > 0
    ensures var rec := r[user][|r[user]| - 1];
      && rec.userId == user && OfPair(rec, req.requesterId, req.resource)
      && (forall a :: a in rec.actionsGranted <==> a in granted)
      && rec.status == Active && rec.grantedAt == now
  {
    var rec := ConsentRecord(user, req.requesterId, req.resource, ToSet(granted), now, Active,
                             conditions.GetOr(map[]));
    db[user := Without(RecordsOf(db, user), req.requesterId, req.resource) + [rec]]
  }

  /** After a grant the user holds exactly one record for the pair, the new
      one, and the records of every other pair are as before and in the same
      order. */
  lemma GrantReplacesPair(db: Db, user: string, req: PermissionRequest, granted: seq<string>,
                          conditions: Option<map<string, string>>, now: Time)
    ensures var r := Grant(db, user, req, granted, conditions, now);
      && PairRecords(r[user], req.requesterId, req.resource) == [r[user][|r[user]| - 1]]
      && forall q, s :: q != req.requesterId || s != req.resource ==>
           PairRecords(r[user], q, s) == PairRecords(RecordsOf(db, user), q, s)
  {
    var r := Grant(db, user, req, granted, conditions, now);
    var kept := Without(RecordsOf(db, user), req.requesterId, req.resource);
    var rec := r[user][|r[user]| - 1];
    assert r[user] == kept + [rec];
    PairRecordsAppend(kept, [rec], req.requesterId, req.resource);
    EmptyIffNoMember(PairRecords(kept, req.requesterId, req.resource));
    assert PairRecords([rec], req.requesterId, req.resource) == [rec];
    forall q, s | q != req.requesterId || s != req.resource
      ensures PairRecords(r[user], q, s) == PairRecords(RecordsOf(db, user), q, s)
    {
      PairRecordsAppend(kept, [rec], q, s);
      WithoutKeepsOtherPairs(RecordsOf(db, user), req.requesterId, req.resource, q, s);
      assert PairRecords([rec], q, s) == [];
    }
  }

  // ---------------------------------------------------------------- check

  /** The loop of `check_consent`: does some record allow the action? */
  function AnyPermits(rs: seq<ConsentRecord>, requester: string, resource: string, action: string): (b: bool)
    ensures b <==> exists x :: x in rs && Permits(x, requester, resource, action)
  {
    if |rs| == 0 then false
    else if Permits(rs[0], requester, resource, action) then true
    else
      assert forall x :: x in rs && x != rs[0] ==> x in rs[1..];
      AnyPermits(rs[1..], requester, resource, action)
  }

  /** `check_consent(user, requester, resource, action)` */
  function Check(db: Db, user: string, requester: string, resource: string, action: string): (b: bool)
    ensures b <==> exists x :: x in RecordsOf(db, user) && Permits(x, requester, resource, action)
    ensures user !in db ==> !b
  {
    user in db && AnyPermits(db[user], requester, resource, action)
  }

  /** After granting `A`, the pair is allowed exactly the actions in `A`;
      other pairs and other users are answered as before. */
  lemma CheckAfterGrant(db: Db, user: string, req: PermissionRequest, granted: seq<string>,
                        conditions: Option<map<string, string>>, now: Time, action: string)
    ensures Check(Grant(db, user, req, granted, conditions, now), user, req.requesterId, req.resource, action)
            <==> action in granted
    ensures forall q, s :: q != req.requesterId || s != req.resource ==>
      (Check(Grant(db, user, req, granted, conditions, now), user, q, s, action) <==> Check(db, user, q, s, action))
    ensures forall u :: u != user ==>
      (Check(Grant(db, user, req, granted, conditions, now), u, req.requesterId, req.resource, action) <==>
       Check(db, u, req.requesterId, req.resource, action))
  {
    var r := Grant(db, user, req, granted, conditions, now);
    var kept := Without(RecordsOf(db, user), req.requesterId, req.resource);
    var rec := r[user][|r[user]| - 1];
    assert r[user] == kept + [rec];
    assert rec in r[user];
    if Check(r, user, req.requesterId, req.resource, action) {
      var x :| x in r[user] && Permits(x, req.requesterId, req.resource, action);
      assert x !in kept;
    }
    forall q, s | q != req.requesterId || s != req.resource
      ensures Check(r, user, q, s, action) <==> Check(db, user, q, s, action)
    {
      if Check(db, user, q, s, action) {
        var x :| x in RecordsOf(db, user) && Permits(x, q, s, action);
        assert x in kept;
        assert x in r[user];
      }
    }
  }

  // ---------------------------------------------------------------- revoke

  /** The effect of `revoke_consent` on one record: a record of the pair is
      marked revoked (no action list) or loses the listed actions, becoming
      revoked when none are left; other records are untouched. */
  function RevokeRecord(rec: ConsentRecord, requester: string, resource: string, actions: Option<set<string>>): ConsentRecord {
    if !OfPair(rec, requester, resource) then rec
    else match actions
      case None => rec.(status := Revoked)
      case Some(drop) =>
        var left := rec.actionsGranted - drop;
        rec.(actionsGranted := left, status := if left == {} then Revoked else rec.status)
  }

  /** The loop of `revoke_consent`: every record is revised and only the
      active ones are kept, in order. */
  function RevokeRecords(rs: seq<ConsentRecord>, requester: string, resource: string,
                         actions: Option<set<string>>): (r: seq<ConsentRecord>)
    ensures ActiveRecords(r)
    ensures forall x :: x in r <==>
      x.status.Active? && exists y :: y in rs && RevokeRecord(y, requester, resource, actions) == x
  {
    if |rs| == 0 then []
    else
      var x := RevokeRecord(rs[0], requester, resource, actions);
      var rest := RevokeRecords(rs[1..], requester, resource, actions);
      assert forall y :: y in rs <==> y == rs[0] || y in rs[1..];
      (if x.status.Active? then [x] else []) + rest
  }

  function ToSet(xs: seq<string>): set<string> {
    set x | x in xs
  }

  /** `revoke_consent(user, requester, resource, actions)` */
  function Revoke(db: Db, user: string, requester: string, resource: string,
                  actions: Option<seq<string>>): (r: Db)
    ensures user !in db ==> r == db
    ensures r.Keys == db.Keys
    ensures forall u :: u in db && u != user ==> r[u] == db[u]
    ensures user in db ==> ActiveRecords(r[user])
  {
    if user !in db then db
    else
      var drop := match actions case None => None case Some(a) => Some(ToSet(a));
      db[user := RevokeRecords(db[user], requester, resource, drop)]
  }

  /** Revoking with no action list withdraws every action of the pair. */
  lemma RevokeAll(db: Db, user: string, requester: string, resource: string, action: string)
    ensures !Check(Revoke(db, user, requester, resource, None), user, requester, resource, action)
    ensures PairRecords(RecordsOf(Revoke(db, user, requester, resource, None), user), requester, resource) == []
  {
    var r := Revoke(db, user, requester, resource, None);
    EmptyIffNoMember(PairRecords(RecordsOf(r, user), requester, resource));
  }

  /** Revoking a list `S` of actions withdraws exactly those: the pair still
      allows `a` iff it allowed `a` before and `a` is not in `S`. */
  lemma RevokeSubset(db: Db, user: string, requester: string, resource: string, drop: seq<string>, action: string)
    ensures Check(Revoke(db, user, requester, resource, Some(drop)), user, requester, resource, action)
            <==> Check(db, user, requester, resource, action) && action !in drop
  {
    var r := Revoke(db, user, requester, resource, Some(drop));
    if Check(r, user, requester, resource, action) {
      var x :| x in RecordsOf(r, user) && Permits(x, requester, resource, action);
      var y :| y in db[user] && RevokeRecord(y, requester, resource, Some(ToSet(drop))) == x;
      assert Permits(y, requester, resource, action);
    }
    if user in db && Check(db, user, requester, resource, action) && action !in drop {
      var y :| y in db[user] && Permits(y, requester, resource, action);
      var x := RevokeRecord(y, requester, resource, Some(ToSet(drop)));
      assert action in x.actionsGranted;
      assert x in r[user];
    }
  }

  /** A record of the pair that loses its last action is removed; one that
      keeps some is stored with the remaining actions. */
  lemma RevokeSubsetRecords(db: Db, user: string, requester: string, resource: string, drop: seq<string>)
    requires AllActive(db) && user in db
    ensures var r := Revoke(db, user, requester, resource, Some(drop));
      && (forall x :: x in PairRecords(r[user], requester, resource) ==>
            x.actionsGranted != {} && x.actionsGranted !! ToSet(drop))
      && (forall y :: y in db[user] && OfPair(y, requester, resource) && y.actionsGranted - ToSet(drop) != {} ==>
            y.(actionsGranted := y.actionsGranted - ToSet(drop)) in PairRecords(r[user], requester, resource))
  {
    var r := Revoke(db, user, requester, resource, Some(drop));
    forall y | y in db[user] && OfPair(y, requester, resource) && y.actionsGranted - ToSet(drop) != {}
      ensures y.(actionsGranted := y.actionsGranted - ToSet(drop)) in r[user]
    {
      var i :| 0 <= i < |db[user]| && db[user][i] == y;
      assert y.status.Active?;
      assert RevokeRecord(y, requester, resource, Some(ToSet(drop))) == y.(actionsGranted := y.actionsGranted - ToSet(drop));
    }
  }

  /** Revoking one pair leaves every other pair's records as they were, in order. */
  lemma {:induction false} RevokeRecordsKeepsOtherPairs(rs: seq<ConsentRecord>, requester: string, resource: string,
                                                        actions: Option<set<string>>, q: string, s: string)
    requires ActiveRecords(rs)
    requires q != requester || s != resource
    ensures PairRecords(RevokeRecords(rs, requester, resource, actions), q, s) == PairRecords(rs, q, s)
  {
    if |rs| > 0 {
      var x := RevokeRecord(rs[0], requester, resource, actions);
      var head := if x.status.Active? then [x] else [];
      assert ActiveRecords(rs[1..]) by {
        forall i | 0 <= i < |rs[1..]| ensures rs[1..][i].status.Active? {
          assert rs[1..][i] == rs[i + 1];
        }
      }
      assert rs[0].status.Active?;
      PairRecordsAppend(head, RevokeRecords(rs[1..], requester, resource, actions), q, s);
      RevokeRecordsKeepsOtherPairs(rs[1..], requester, resource, actions, q, s);
      if OfPair(rs[0], requester, resource) {
        assert PairRecords(head, q, s) == [];
      } else {
        assert head == [rs[0]];
      }
    }
  }

  lemma RevokeKeepsOtherPairs(db: Db, user: string, requester: string, resource: string,
                              actions: Option<seq<string>>, q: string, s: string)
    requires AllActive(db)
    requires q != requester || s != resource
    ensures PairRecords(RecordsOf(Revoke(db, user, requester, resource, actions), user), q, s)
            == PairRecords(RecordsOf(db, user), q, s)
  {
    if user in db {
      var drop := match actions case None => None case Some(a) => Some(ToSet(a));
      RevokeRecordsKeepsOtherPairs(db[user], requester, resource, drop, q, s);
    }
  }

  // ---------------------------------------------------------------- denial, request, listing

  /** `record_denial`: only prints; the store is not touched. */
  function RecordDenial(db: Db, user: string, req: PermissionRequest, denied: seq<string>): (r: Db)
    ensures r == db
  {
    db
  }

  /** `request_consent`: the simulated user approves exactly the requests that
      read from the memory graph, granting every requested action. */
  function RequestConsent(db: Db, user: string, req: PermissionRequest, now: Time): (r: (bool, Db))
    ensures r.0 <==> Contains(req.resource, "memory_graph") && "read" in req.actions
    ensures r.0 ==> r.1 == Grant(db, user, req, req.actions, None, now)
    ensures !r.0 ==> r.1 == db
  {
    if Contains(req.resource, "memory_graph") && "read" in req.actions then
      (true, Grant(db, user, req, req.actions, None, now))
    else
      (false, RecordDenial(db, user, req, req.actions))
  }

  /** An approved request leaves the requester allowed to read, and to do
      exactly the requested actions on that resource. */
  lemma ApprovedRequestAllowsRead(db: Db, user: string, req: PermissionRequest, now: Time, action: string)
    requires RequestConsent(db, user, req, now).0
    ensures Check(RequestConsent(db, user, req, now).1, user, req.requesterId, req.resource, "read")
    ensures Check(RequestConsent(db, user, req, now).1, user, req.requesterId, req.resource, action)
            <==> action in req.actions
  {
    CheckAfterGrant(db, user, req, req.actions, None, now, "read");
    CheckAfterGrant(db, user, req, req.actions, None, now, action);
  }

  /** `get_user_consents`: the user's active records, in stored order. */
  function GetUserConsents(db: Db, user: string): (r: seq<ConsentRecord>)
    ensures ActiveRecords(r)
    ensures forall x :: x in r <==> x in RecordsOf(db, user) && x.status.Active?
  {
    ActiveOnly(RecordsOf(db, user))
  }

  function ActiveOnly(rs: seq<ConsentRecord>): (r: seq<ConsentRecord>)
    ensures ActiveRecords(r)
    ensures forall x :: x in r <==> x in rs && x.status.Active?
  {
    if |rs| == 0 then []
    else (if rs[0].status.Active? then [rs[0]] else []) + ActiveOnly(rs[1..])
  }

  lemma {:induction false} ActiveOnlyKeepsActive(rs: seq<ConsentRecord>)
    requires ActiveRecords(rs)
    ensures ActiveOnly(rs) == rs
  {
    if |rs| > 0 {
      assert rs[0].status.Active?;
      assert ActiveRecords(rs[1..]) by {
        forall i | 0 <= i < |rs[1..]| ensures rs[1..][i].status.Active? {
          assert rs[1..][i] == rs[i + 1];
        }
      }
      ActiveOnlyKeepsActive(rs[1..]);
    }
  }

  // ---------------------------------------------------------------- invariant

  /** The empty store, as the service starts. */
  const Empty: Db := map[]

  lemma GrantPreservesAllActive(db: Db, user: string, req: PermissionRequest, granted: seq<string>,
                                conditions: Option<map<string, string>>, now: Time)
    requires AllActive(db)
    ensures AllActive(Grant(db, user, req, granted, conditions, now))
  {
    var r: Db := Grant(db, user, req, granted, conditions, now);
    var kept := Without(RecordsOf(db, user), req.requesterId, req.resource);
    forall i: int | 0 <= i < |r[user]| ensures r[user][i].status.Active? {
      if i < |kept| {
        assert r[user][i] in kept;
        assert r[user][i] in RecordsOf(db, user);
        var j :| 0 <= j < |RecordsOf(db, user)| && RecordsOf(db, user)[j] == r[user][i];
      }
    }
  }

  lemma RevokePreservesAllActive(db: Db, user: string, requester: string, resource: string,
                                 actions: Option<seq<string>>)
    requires AllActive(db)
    ensures AllActive(Revoke(db, user, requester, resource, actions))
  {
  }

  /** Because every stored record stays active, `get_user_consents` returns
      the whole stored list. */
  lemma GetUserConsentsReturnsAll(db: Db, user: string)
    requires AllActive(db)
    ensures GetUserConsents(db, user) == RecordsOf(db, user)
  {
    if user in db {
      ActiveOnlyKeepsActive(db[user]);
    }
  }

  /** One step of the service: a request, grant, revoke or denial. */
  datatype Op =
    | RequestOp(user: string, req: PermissionRequest, now: Time)
    | GrantOp(user: string, req: PermissionRequest, granted: seq<string>, conditions: Option<map<string, string>>, now: Time)
    | RevokeOp(user: string, requester: string, resource: string, actions: Option<seq<string>>)
    | DenialOp(user: string, req: PermissionRequest, denied: seq<string>)

  function Step(db: Db, op: Op): Db {
    match op
    case RequestOp(u, req, now) => RequestConsent(db, u, req, now).1
    case GrantOp(u, req, g, c, now) => Grant(db, u, req, g, c, now)
    case RevokeOp(u, q, s, a) => Revoke(db, u, q, s, a)
    case DenialOp(u, req, d) => RecordDenial(db, u, req, d)
  }

  function Run(db: Db, ops: seq<Op>): Db
    decreases |ops|
  {
    if |ops| == 0 then db else Run(Step(db, ops[0]), ops[1..])
  }

  /** Whatever sequence of operations runs from the empty store, every
      stored record is active and listing returns all of a user's records. */
  lemma {:induction false} RunKeepsAllActive(db: Db, ops: seq<Op>, user: string)
    requires AllActive(db)
    ensures AllActive(Run(db, ops))
    ensures GetUserConsents(Run(db, ops), user) == RecordsOf(Run(db, ops), user)
    decreases |ops|
  {
    if |ops| > 0 {
      match ops[0] {
      case RequestOp(u, req, now) =>
        if RequestConsent(db, u, req, now).0 {
          GrantPreservesAllActive(db, u, req, req.actions, None, now);
        }
      case GrantOp(u, req, g, c, now) => GrantPreservesAllActive(db, u, req, g, c, now);
      case RevokeOp(u, q, s, a) => RevokePreservesAllActive(db, u, q, s, a);
      case DenialOp(_, _, _) =>
      }
      assert AllActive(Step(db, ops[0]));
      RunKeepsAllActive(Step(db, ops[0]), ops[1..], user);
    } else {
      GetUserConsentsReturnsAll(db, user);
    }
  }

  /** A fresh process starts from the empty store, so the invariant holds after
      any sequence of operations. */
  lemma RunFromEmpty(ops: seq<Op>, user: string)
    ensures AllActive(Run(Empty, ops))
    ensures GetUserConsents(Run(Empty, ops), user) == RecordsOf(Run(Empty, ops), user)
  {
    RunKeepsAllActive(Empty, ops, user);
  }
}

=== FILE: focus_mind.dfy ===
/** The FocusMind example agent (agents/examples/focus_mind/agent.py): a
    one-variable state machine driven by phrases found in the lower-cased
    task description. The language-model, memory and ledger helpers it calls
    are placeholders; only the language-model placeholder's text reaches a
    reply. */
module FocusMind {
  import opened Base
  import opened Strings
  import opened Values

  /** The agent's fields after `setup`. `duration` is whatever the custom
      configuration holds; nothing checks that it is an integer. */
  datatype FocusState = FocusState(currentTask: Option<string>, duration: Json)

  const DurationKey := "default_focus_duration_minutes"
  const DefaultDuration := JNum(25)

  /** `setup`: no current task, and the configured default duration or 25.
      `customConfig` is the context's `agent_custom_config` (`None` and `{}`
      alike become `{}`). */
  function Setup(customConfig: Option<Params>): (s: FocusState)
    ensures s.currentTask.None?
    ensures customConfig.Some? && DurationKey in customConfig.value ==> s.duration == customConfig.value[DurationKey]
    ensures customConfig.None? || DurationKey !in customConfig.value ==> s.duration == JNum(25)
  {
    FocusState(None, GetOr(OrEmpty(customConfig), DurationKey, DefaultDuration))
  }

  const StartPhrase := "start focus session on"
  const CurrentPhrase := "get current focus task"
  const BreakPhrase := "suggest break activity"

  /** The characters the second `strip` removes. */
  const Quotes: set<char> := {'\'', '"'}

  /** `_get_llm_response`: a placeholder that echoes the prompt. */
  function LlmResponse(prompt: string): string {
    "Placeholder LLM response to: " + prompt
  }

  const BreakPrompt := "Suggest a short, refreshing break activity for someone working on a computer."

  datatype Reply =
    | Started(task: string, duration: Json)
    | StartParseError
    | CurrentTask(task: string)
    | NoActiveTask
    | BreakSuggestion(suggestion: string)
    | NotHandled

  /** Which branch a description selects: the first phrase found wins. */
  datatype Command = StartCmd | CurrentCmd | BreakCmd | OtherCmd

  function CommandOf(description: string): (c: Command)
    ensures c == StartCmd <==> Contains(Lower(description), StartPhrase)
    ensures c == CurrentCmd <==> !Contains(Lower(description), StartPhrase) && Contains(Lower(description), CurrentPhrase)
    ensures c == BreakCmd <==>
      && !Contains(Lower(description), StartPhrase) && !Contains(Lower(description), CurrentPhrase)
      && Contains(Lower(description), BreakPhrase)
  {
    var d := Lower(description);
    if Contains(d, StartPhrase) then StartCmd
    else if Contains(d, CurrentPhrase) then CurrentCmd
    else if Contains(d, BreakPhrase) then BreakCmd
    else OtherCmd
  }

  /** The task named after the start phrase: whitespace, then quotes, stripped. */
  function TaskName(afterPhrase: string): string {
    Strip(Strip(afterPhrase, Whitespace), Quotes)
  }

  /** `execute_task(description, parameters)` */
  function Execute(s: FocusState, description: string, parameters: Option<Params>): (r: (FocusState, Reply))
    ensures CommandOf(description) != StartCmd ==> r.0 == s
    ensures r.1.Started? <==> CommandOf(description) == StartCmd
  {
    var params := OrEmpty(parameters);
    match CommandOf(description)
    case StartCmd =>
      var parts := SplitOnce(Lower(description), StartPhrase);
      if |parts| < 2 then (s, StartParseError)
      else
        var task := TaskName(parts[1]);
        var duration := GetOr(params, "duration_minutes", s.duration);
        (s.(currentTask := Some(task)), Started(task, duration))
    case CurrentCmd =>
      if s.currentTask.Some? && s.currentTask.value != "" then (s, CurrentTask(s.currentTask.value))
      else (s, NoActiveTask)
    case BreakCmd =>
      var suggestion := LlmResponse(BreakPrompt);
      (s, BreakSuggestion(if suggestion != "" then suggestion else "Take a short walk or stretch."))
    case OtherCmd => (s, NotHandled)
  }

  /** The start branch always finds its phrase again, so the parse-error
      reply is never produced; the task becomes the stripped text after the
      first occurrence of the phrase, and the duration is the parameter when
      given and the default otherwise. */
  lemma StartSetsTask(s: FocusState, description: string, parameters: Option<Params>)
    requires Contains(Lower(description), StartPhrase)
    ensures var (s', reply) := Execute(s, description, parameters);
      && reply != StartParseError
      && s'.currentTask == Some(TaskName(AfterFirst(Lower(description), StartPhrase)))
      && s'.duration == s.duration
      && reply == Started(s'.currentTask.value, GetOr(OrEmpty(parameters), "duration_minutes", s.duration))
  {
  }

  /** A stripped text is an infix of the text it came from. */
  lemma StripIsInfix(t: string, chars: set<char>)
    ensures forall i :: 0 <= i < |Strip(t, chars)| ==> Strip(t, chars)[i] in t
  {
    var r := Strip(t, chars);
    var a :| TrimmedAt(t, r, chars, a);
    forall i | 0 <= i < |r| ensures r[i] in t {
      assert r[i] == t[a + i];
    }
  }

  predicate IsLowerCase(t: string) {
    forall i :: 0 <= i < |t| ==> LowerChar(t[i]) == t[i]
  }

  /** Every character of `t` occurs in `s`. */
  predicate CharsFrom(t: string, s: string) {
    forall i :: 0 <= i < |t| ==> t[i] in s
  }

  lemma LowerIsLowerCase(x: string)
    ensures IsLowerCase(Lower(x))
  {
  }

  lemma CharsFromKeepsLowerCase(t: string, s: string)
    requires IsLowerCase(s) && CharsFrom(t, s)
    ensures IsLowerCase(t)
  {
    forall k | 0 <= k < |t| ensures LowerChar(t[k]) == t[k] {
      var j :| 0 <= j < |s| && s[j] == t[k];
    }
  }

  /** The recorded task is lower case and neither starts nor ends with a
      quote. Whitespace is stripped before the quotes, so whitespace inside
      them stays. */
  lemma TaskIsLowerAndTrimmed(description: string)
    requires Contains(Lower(description), StartPhrase)
    ensures var t := TaskName(AfterFirst(Lower(description), StartPhrase));
      && IsLowerCase(t)
      && (|t| > 0 ==> t[0] !in Quotes && t[|t| - 1] !in Quotes)
  {
    var d := Lower(description);
    LowerIsLowerCase(description);
    var after := AfterFirst(d, StartPhrase);
    var i :| FirstOccurrence(d, StartPhrase, i) && after == d[i + |StartPhrase|..];
    assert IsLowerCase(after) by {
      forall k | 0 <= k < |after| ensures LowerChar(after[k]) == after[k] {
        assert after[k] == d[i + |StartPhrase| + k];
      }
    }
    var w := Strip(after, Whitespace);
    StripIsInfix(after, Whitespace);
    CharsFromKeepsLowerCase(w, after);
    StripIsInfix(w, Quotes);
    CharsFromKeepsLowerCase(Strip(w, Quotes), w);
  }

  /** Upper and lower case select and produce the same thing. */
  lemma CaseInsensitive(s: FocusState, d1: string, d2: string, parameters: Option<Params>)
    requires Lower(d1) == Lower(d2)
    ensures Execute(s, d1, parameters) == Execute(s, d2, parameters)
  {
  }

  /** Asking for the current task changes nothing and reports the task when
      there is a non-empty one. */
  lemma GetCurrentReports(s: FocusState, description: string, parameters: Option<Params>)
    requires CommandOf(description) == CurrentCmd
    ensures Execute(s, description, parameters).0 == s
    ensures Execute(s, description, parameters).1 ==
      (if s.currentTask.Some? && s.currentTask.value != "" then CurrentTask(s.currentTask.value) else NoActiveTask)
  {
  }

  /** The break and fallback branches keep the state and never fail; the
      break suggestion is the placeholder's reply. */
  lemma BreakAndFallbackKeepState(s: FocusState, description: string, parameters: Option<Params>)
    requires CommandOf(description) == BreakCmd || CommandOf(description) == OtherCmd
    ensures Execute(s, description, parameters).0 == s
    ensures CommandOf(description) == BreakCmd ==> Execute(s, description, parameters).1 == BreakSuggestion(LlmResponse(BreakPrompt))
    ensures CommandOf(description) == OtherCmd ==> Execute(s, description, parameters).1 == NotHandled
  {
  }

  /** The example phrase for the current task selects that branch. */
  lemma CurrentPhraseSelectsCurrent()
    ensures CommandOf(CurrentPhrase) == CurrentCmd
  {
    var g := CurrentPhrase;
    assert Lower(g) == g;
    assert OccursAt(g, CurrentPhrase, 0);
    assert !OccursAt(g, StartPhrase, 0) by {
      assert g[0] != StartPhrase[0];
    }
  }

  /** Starting a session on a non-empty task and then asking for the current
      task reports that task. */
  lemma StartThenGet(s: FocusState, description: string, parameters: Option<Params>)
    requires Contains(Lower(description), StartPhrase)
    requires TaskName(AfterFirst(Lower(description), StartPhrase)) != ""
    ensures var s1 := Execute(s, description, parameters).0;
      Execute(s1, CurrentPhrase, None).1 == CurrentTask(TaskName(AfterFirst(Lower(description), StartPhrase)))
  {
    StartSetsTask(s, description, parameters);
    CurrentPhraseSelectsCurrent();
  }
}

=== FILE: manifest.dfy ===
/** Reading an agent manifest (agent_runtime/manifest_parser.py): choosing
    the YAML or JSON reader by file extension, checking the decoded document
    against the `AgentManifest` shape, validating `agent_id`, and turning
    every failure into `None`. */
module Manifest {
  import opened Base
  import opened Strings
  import opened Values

  // ---------------------------------------------------------------- agent_id

  /** `agent_id_format` as written: the id is rejected only when it is not
      alphanumeric AND has neither '_' nor '-'; an accepted id is lower-cased. */
  function ValidateAgentId(value: string): (r: Option<string>)
    ensures r.Some? <==> IsAlnum(value) || '_' in value || '-' in value
    ensures r.Some? ==> r.value == Lower(value)
  {
    if !IsAlnum(value) && '_' !in value && '-' !in value then None else Some(Lower(value))
  }

  /** A character the error message allows: a letter, a digit, '_' or '-'. */
  predicate IdChar(c: char) {
    IsAlnumChar(c) || c == '_' || c == '-'
  }

  /** What the error message and the comment ("no spaces") ask for: a
      non-empty id made of letters, digits, underscores and hyphens only. */
  predicate ValidAgentId(value: string) {
    |value| > 0 && forall i :: 0 <= i < |value| ==> IdChar(value[i])
  }

  /** The validator as intended: accepts exactly the valid ids, lower-cased. */
  function ValidateAgentIdIntended(value: string): (r: Option<string>)
    ensures r.Some? <==> ValidAgentId(value)
    ensures r.Some? ==> r.value == Lower(value) && ValidAgentId(r.value)
  {
    if ValidAgentId(value) then
      assert ValidAgentId(Lower(value)) by {
        forall i | 0 <= i < |value| ensures IdChar(Lower(value)[i]) {
          assert IdChar(value[i]);
        }
      }
      Some(Lower(value))
    else None
  }

  /** Both validators are idempotent: an accepted id is accepted again and
      left as it is, so re-validating a parsed manifest changes nothing. */
  lemma ValidateAgentIdIdempotent(value: string)
    ensures ValidateAgentId(value).Some? ==> ValidateAgentId(ValidateAgentId(value).value) == ValidateAgentId(value)
    ensures ValidateAgentIdIntended(value).Some? ==>
      ValidateAgentIdIntended(ValidateAgentIdIntended(value).value) == ValidateAgentIdIntended(value)
  {
    LowerKeepsAlnum(value);
    LowerKeepsSymbol(value, '_');
    LowerKeepsSymbol(value, '-');
    LowerIdempotent(value);
  }

  /** Every id the intended validator accepts, the written one accepts too,
      with the same result. */
  lemma IntendedImpliesAsWritten(value: string)
    requires ValidAgentId(value)
    ensures ValidateAgentId(value) == ValidateAgentIdIntended(value)
  {
    if !IsAlnum(value) {
      var i :| 0 <= i < |value| && !IsAlnumChar(value[i]);
      assert IdChar(value[i]);
      assert value[i] in value;
    }
  }

  /** The written check lets through an id with a space as soon as it also
      contains an underscore; the intended one rejects it. */
  lemma SpacedIdWithUnderscoreAccepted()
    ensures ValidateAgentId("my agent_1") == Some("my agent_1")
    ensures ValidateAgentIdIntended("my agent_1") == None
  {
    var v := "my agent_1";
    forall i | 0 <= i < |v| ensures Lower(v)[i] == v[i] {
    }
    assert Lower(v) == v;
    assert v[8] == '_';
    assert !IdChar("my agent_1"[2]);
  }

  /** The id of the invalid example manifest is rejected by both. */
  lemma SpacedExampleRejected()
    ensures ValidateAgentId("invalid agent id with spaces") == None
    ensures ValidateAgentIdIntended("invalid agent id with spaces") == None
  {
    var v := "invalid agent id with spaces";
    assert !IsAlnumChar(v[7]);
    assert !IdChar(v[7]);
    assert forall i :: 0 <= i < |v| ==> v[i] != '_' && v[i] != '-';
  }

  // ---------------------------------------------------------------- document shape

  /** `AgentRuntimeConfig`; `kind` is the `type` key. */
  datatype RuntimeConfig = RuntimeConfig(
    kind: string,
    image: Option<string>,
    wasmPath: Option<string>,
    entrypoint: Option<seq<string>>,
    envVars: Option<map<string, string>>)

  /** `AgentPermission` */
  datatype Permission = Permission(resource: string, actions: seq<string>, conditions: Option<map<string, Json>>)

  /** `AgentLLMConfig` */
  datatype LlmConfig = LlmConfig(preferredModels: Option<seq<string>>, maxTokensPerRequest: Option<int>)

  /** `AgentManifest` */
  datatype AgentManifest = AgentManifest(
    agentId: string,
    version: string,
    name: string,
    description: Option<string>,
    author: Option<string>,
    runtime: RuntimeConfig,
    permissionsRequested: seq<Permission>,
    llmConfig: Option<LlmConfig>,
    tags: Option<seq<string>>,
    customConfig: Option<map<string, Json>>)

  /** A required `str` field. */
  function ReqStr(m: map<string, Json>, key: string): (r: Option<string>)
    ensures r.Some? <==> key in m && m[key].JStr?
  {
    if key in m && m[key].JStr? then Some(m[key].s) else None
  }

  /** An `Optional[str]` field defaulting to `None`: `Some(x)` is the decoded
      field, `None` a validation error. */
  function OptStr(m: map<string, Json>, key: string): (r: Option<Option<string>>)
    ensures r.Some? <==> key !in m || m[key].JNull? || m[key].JStr?
  {
    if key !in m || m[key].JNull? then Some(None)
    else if m[key].JStr? then Some(Some(m[key].s))
    else None
  }

  /** `List[str]` */
  function StrList(v: Json): (r: Option<seq<string>>)
    ensures r.Some? <==> v.JList? && forall i :: 0 <= i < |v.items| ==> v.items[i].JStr?
    ensures r.Some? ==> |r.value| == |v.items| && forall i :: 0 <= i < |v.items| ==> v.items[i] == JStr(r.value[i])
  {
    if v.JList? && forall i :: 0 <= i < |v.items| ==> v.items[i].JStr? then
      Some(seq(|v.items|, i requires 0 <= i < |v.items| => v.items[i].s))
    else None
  }

  /** `Dict[str, str]` */
  function StrMap(v: Json): (r: Option<map<string, string>>)
    ensures r.Some? <==> v.JObject? && forall k :: k in v.fields ==> v.fields[k].JStr?
    ensures r.Some? ==> r.value.Keys == v.fields.Keys
  {
    if v.JObject? && forall k :: k in v.fields ==> v.fields[k].JStr? then
      Some(map k | k in v.fields :: v.fields[k].s)
    else None
  }

  /** An `Optional[List[str]]` field whose default is `[]`. */
  function OptStrList(m: map<string, Json>, key: string): Option<Option<seq<string>>> {
    if key !in m then Some(Some([]))
    else if m[key].JNull? then Some(None)
    else match StrList(m[key]) case None => None case Some(l) => Some(Some(l))
  }

  /** An `Optional[Dict[str, str]]` field whose default is `{}`. */
  function OptStrMap(m: map<string, Json>, key: string): Option<Option<map<string, string>>> {
    if key !in m then Some(Some(map[]))
    else if m[key].JNull? then Some(None)
    else match StrMap(m[key]) case None => None case Some(d) => Some(Some(d))
  }

  /** An `Optional[Dict[str, Any]]` field whose default is `{}`. */
  function OptAnyMap(m: map<string, Json>, key: string): Option<Option<map<string, Json>>> {
    if key !in m then Some(Some(map[]))
    else if m[key].JNull? then Some(None)
    else if m[key].JObject? then Some(Some(m[key].fields))
    else None
  }

  /** An `Optional[int]` field defaulting to `None`. */
  function OptInt(m: map<string, Json>, key: string): Option<Option<int>> {
    if key !in m || m[key].JNull? then Some(None)
    else if m[key].JNum? then Some(Some(m[key].n))
    else None
  }

  function RuntimeOf(v: Json): Option<RuntimeConfig> {
    if !v.JObject? then None
    else
      var m := v.fields;
      match (ReqStr(m, "type"), OptStr(m, "image"), OptStr(m, "wasm_path"), OptStrList(m, "entrypoint"), OptStrMap(m, "env_vars"))
      case (Some(kind), Some(image), Some(wasm), Some(entry), Some(env)) => Some(RuntimeConfig(kind, image, wasm, entry, env))
      case _ => None
  }

  function PermissionOf(v: Json): Option<Permission> {
    if !v.JObject? then None
    else
      var m := v.fields;
      match (ReqStr(m, "resource"), if "actions" in m then StrList(m["actions"]) else None, OptAnyMap(m, "conditions"))
      case (Some(res), Some(acts), Some(cond)) => Some(Permission(res, acts, cond))
      case _ => None
  }

  /** `List[AgentPermission]`: every item must be a valid permission. */
  function PermissionsOf(items: seq<Json>): (r: Option<seq<Permission>>)
    ensures r.Some? <==> forall i :: 0 <= i < |items| ==> PermissionOf(items[i]).Some?
    ensures r.Some? ==> |r.value| == |items| && forall i :: 0 <= i < |items| ==> Some(r.value[i]) == PermissionOf(items[i])
  {
    if |items| == 0 then Some([])
    else match (PermissionOf(items[0]), PermissionsOf(items[1..]))
      case (Some(p), Some(ps)) => Some([p] + ps)
      case _ =>
        assert forall i :: 1 <= i < |items| ==> items[1..][i - 1] == items[i];
        None
  }

  function LlmConfigOf(v: Json): Option<Option<LlmConfig>> {
    if v.JNull? then Some(None)
    else if !v.JObject? then None
    else match (OptStrList(v.fields, "preferred_models"), OptInt(v.fields, "max_tokens_per_request"))
      case (Some(models), Some(maxTokens)) => Some(Some(LlmConfig(models, maxTokens)))
      case _ => None
  }

  /** The keys `AgentManifest` declares; any other key is ignored. */
  const ManifestKeys: set<string> := {"agent_id", "version", "name", "description", "author", "runtime",
                                       "permissions_requested", "llm_config", "tags", "custom_config"}

  /** `AgentManifest(**data)`: the document must be a mapping, every declared
      field must have its type, and `agent_id` must pass the validator.
      `validate` is the validator in use. */
  /** The required keys of `data` carry the manifest's values: a string id
      that `validate` turns into the manifest's id, string version and name,
      and a well-formed runtime. */
  predicate Describes(data: Json, m: AgentManifest, validate: string -> Option<string>) {
    && data.JObject? && "agent_id" in data.fields && data.fields["agent_id"].JStr?
    && validate(data.fields["agent_id"].s) == Some(m.agentId)
    && "version" in data.fields && data.fields["version"] == JStr(m.version)
    && "name" in data.fields && data.fields["name"] == JStr(m.name)
    && "runtime" in data.fields && RuntimeOf(data.fields["runtime"]) == Some(m.runtime)
  }

  function ManifestOf(data: Json, validate: string -> Option<string>): (r: Option<AgentManifest>)
    ensures r.Some? ==> Describes(data, r.value, validate)
  {
    if !data.JObject? then None
    else
      var m := data.fields;
      var id := match ReqStr(m, "agent_id") case None => None case Some(raw) => validate(raw);
      var perms := if "permissions_requested" !in m then Some([])
                   else if m["permissions_requested"].JList? then PermissionsOf(m["permissions_requested"].items)
                   else None;
      var llm := if "llm_config" in m then LlmConfigOf(m["llm_config"]) else Some(None);
      var runtime := if "runtime" in m then RuntimeOf(m["runtime"]) else None;
      if id.Some? && ReqStr(m, "version").Some? && ReqStr(m, "name").Some?
         && OptStr(m, "description").Some? && OptStr(m, "author").Some? && runtime.Some?
         && perms.Some? && llm.Some? && OptStrList(m, "tags").Some? && OptAnyMap(m, "custom_config").Some?
      then
        Some(AgentManifest(id.value, ReqStr(m, "version").value, ReqStr(m, "name").value,
                           OptStr(m, "description").value, OptStr(m, "author").value, runtime.value,
                           perms.value, llm.value, OptStrList(m, "tags").value, OptAnyMap(m, "custom_config").value))
      else None
  }

  /** Keys outside the declared fields do not influence the outcome. */
  lemma ExtraKeysIgnored(m: map<string, Json>, key: string, v: Json, validate: string -> Option<string>)
    requires key !in ManifestKeys
    ensures ManifestOf(JObject(m[key := v]), validate) == ManifestOf(JObject(m), validate)
  {
    var m' := m[key := v];
    forall k | k in ManifestKeys ensures (k in m' <==> k in m) && (k in m ==> m'[k] == m[k]) {
    }
    assert "agent_id" in ManifestKeys && "version" in ManifestKeys && "name" in ManifestKeys;
    assert "description" in ManifestKeys && "author" in ManifestKeys && "runtime" in ManifestKeys;
    assert "permissions_requested" in ManifestKeys && "llm_config" in ManifestKeys;
    assert "tags" in ManifestKeys && "custom_config" in ManifestKeys;
  }

  /** The smallest accepted manifest: the four required values, everything
      else taking its declared default, the id as the validator returns it. */
  lemma MinimalManifest(id: string, version: string, name: string, kind: string, validate: string -> Option<string>)
    requires validate(id).Some?
    ensures ManifestOf(JObject(map["agent_id" := JStr(id), "version" := JStr(version), "name" := JStr(name),
                                   "runtime" := JObject(map["type" := JStr(kind)])]),
                       validate)
            == Some(AgentManifest(validate(id).value, version, name, None, None,
                                  RuntimeConfig(kind, None, None, Some([]), Some(map[])),
                                  [], None, Some([]), Some(map[])))
  {
  }

  // ---------------------------------------------------------------- parsing a file

  datatype Format = Yaml | JsonText

  /** The reader chosen by the path's extension, if any. */
  function FormatOf(path: string): (f: Option<Format>)
    ensures f == Some(Yaml) <==> EndsWith(path, ".yaml") || EndsWith(path, ".yml")
    ensures f == Some(JsonText) <==> !EndsWith(path, ".yaml") && !EndsWith(path, ".yml") && EndsWith(path, ".json")
  {
    if EndsWith(path, ".yaml") || EndsWith(path, ".yml") then Some(Yaml)
    else if EndsWith(path, ".json") then Some(JsonText)
    else None
  }

  lemma FormatExamples()
    ensures FormatOf("dummy_agent_manifest.yaml") == Some(Yaml)
    ensures FormatOf("agent.yml") == Some(Yaml)
    ensures FormatOf("agent.json") == Some(JsonText)
    ensures FormatOf("agent.toml") == None
    ensures FormatOf("yaml") == None
  {
    assert "agent.toml"[5..] == ".toml";
  }

  /** The decoded document of a manifest file. `file` is the text at `path`
      (`None`: there is no such file); `loadYaml` and `loadJson` are the two
      readers, giving `None` on a syntax error. */
  function ReadDocument(path: string, file: Option<string>,
                        loadYaml: string -> Option<Json>, loadJson: string -> Option<Json>): (r: Option<Json>)
    ensures file.None? || FormatOf(path).None? ==> r.None?
    ensures file.Some? && FormatOf(path) == Some(Yaml) ==> r == loadYaml(file.value)
    ensures file.Some? && FormatOf(path) == Some(JsonText) ==> r == loadJson(file.value)
  {
    if file.None? then None
    else match FormatOf(path)
      case None => None
      case Some(Yaml) => loadYaml(file.value)
      case Some(JsonText) => loadJson(file.value)
  }

  /** `parse_agent_manifest(path)`: the document must be read and must pass
      `AgentManifest(**data)` with `agent_id_format` as written. */
  function ParseManifest(path: string, file: Option<string>,
                         loadYaml: string -> Option<Json>, loadJson: string -> Option<Json>): (r: Option<AgentManifest>)
    ensures ReadDocument(path, file, loadYaml, loadJson).None? ==> r.None?
    ensures ReadDocument(path, file, loadYaml, loadJson).Some? ==>
      (r.Some? <==> ManifestOf(ReadDocument(path, file, loadYaml, loadJson).value, ValidateAgentId).Some?)
    ensures r.Some? ==>
      && ReadDocument(path, file, loadYaml, loadJson).Some?
      && Describes(ReadDocument(path, file, loadYaml, loadJson).value, r.value, ValidateAgentId)
    ensures r.Some? ==> ValidateAgentId(r.value.agentId) == Some(r.value.agentId)
  {
    match ReadDocument(path, file, loadYaml, loadJson)
    case None => None
    case Some(d) =>
      var r := ManifestOf(d, ValidateAgentId);
      if r.Some? then
        ValidateAgentIdIdempotent(d.fields["agent_id"].s);
        r
      else r
  }

  /** `parse_agent_manifest` with the intended `agent_id` check: every parsed
      id is made of letters, digits, '_' and '-' only. */
  function ParseManifestIntended(path: string, file: Option<string>,
                                 loadYaml: string -> Option<Json>, loadJson: string -> Option<Json>): (r: Option<AgentManifest>)
    ensures ReadDocument(path, file, loadYaml, loadJson).None? ==> r.None?
    ensures ReadDocument(path, file, loadYaml, loadJson).Some? ==>
      (r.Some? <==> ManifestOf(ReadDocument(path, file, loadYaml, loadJson).value, ValidateAgentIdIntended).Some?)
    ensures r.Some? ==>
      && ReadDocument(path, file, loadYaml, loadJson).Some?
      && Describes(ReadDocument(path, file, loadYaml, loadJson).value, r.value, ValidateAgentIdIntended)
    ensures r.Some? ==> ValidAgentId(r.value.agentId) && ValidateAgentIdIntended(r.value.agentId) == Some(r.value.agentId)
  {
    match ReadDocument(path, file, loadYaml, loadJson)
    case None => None
    case Some(d) =>
      var r := ManifestOf(d, ValidateAgentIdIntended);
      if r.Some? then
        ValidateAgentIdIdempotent(d.fields["agent_id"].s);
        r
      else r
  }

  /** The two parsers differ only on ids the intended check rejects: whatever
      the intended parser accepts, the written one accepts with the same result. */
  lemma IntendedParseAgrees(path: string, file: Option<string>,
                            loadYaml: string -> Option<Json>, loadJson: string -> Option<Json>)
    ensures ParseManifestIntended(path, file, loadYaml, loadJson).Some? ==>
      ParseManifest(path, file, loadYaml, loadJson) == ParseManifestIntended(path, file, loadYaml, loadJson)
  {
    var r := ParseManifestIntended(path, file, loadYaml, loadJson);
    if r.Some? {
      var d := ReadDocument(path, file, loadYaml, loadJson).value;
      var raw := d.fields["agent_id"].s;
      IntendedImpliesAsWritten(raw);
      assert ManifestOf(d, ValidateAgentId) == ManifestOf(d, ValidateAgentIdIntended);
    }
  }

  /** A syntax error in the file gives `None`. */
  lemma UnreadableFileRejected(path: string, text: string, loadYaml: string -> Option<Json>, loadJson: string -> Option<Json>)
    requires FormatOf(path) == Some(Yaml) ==> loadYaml(text).None?
    requires FormatOf(path) == Some(JsonText) ==> loadJson(text).None?
    ensures ParseManifest(path, Some(text), loadYaml, loadJson).None?
  {
  }

  /** The invalid example of the module: its `agent_id` has spaces and neither
      '_' nor '-', so the file parses to `None` whatever else it holds. */
  lemma InvalidExampleRejected(path: string, text: string, m: map<string, Json>,
                               loadYaml: string -> Option<Json>, loadJson: string -> Option<Json>)
    requires FormatOf(path) == Some(Yaml) && loadYaml(text) == Some(JObject(m))
    requires "agent_id" in m && m["agent_id"] == JStr("invalid agent id with spaces")
    ensures ParseManifest(path, Some(text), loadYaml, loadJson).None?
    ensures ParseManifestIntended(path, Some(text), loadYaml, loadJson).None?
  {
    SpacedExampleRejected();
  }

  /** A well-typed minimal manifest whose id passes the check is read from a
      YAML or a JSON file alike, with the id lower-cased. */
  lemma MinimalFileAccepted(path: string, text: string, id: string, version: string, name: string, kind: string,
                            loadYaml: string -> Option<Json>, loadJson: string -> Option<Json>)
    requires ValidateAgentId(id).Some?
    requires FormatOf(path).Some?
    requires var doc := Some(JObject(map["agent_id" := JStr(id), "version" := JStr(version), "name" := JStr(name),
                                         "runtime" := JObject(map["type" := JStr(kind)])]));
      (FormatOf(path) == Some(Yaml) ==> loadYaml(text) == doc) && (FormatOf(path) == Some(JsonText) ==> loadJson(text) == doc)
    ensures ParseManifest(path, Some(text), loadYaml, loadJson)
            == Some(AgentManifest(Lower(id), version, name, None, None,
                                  RuntimeConfig(kind, None, None, Some([]), Some(map[])),
                                  [], None, Some([]), Some(map[])))
  {
    MinimalManifest(id, version, name, kind, ValidateAgentId);
  }

  /** With the intended check, a minimal manifest whose id is valid is read
      from a YAML or a JSON file alike, with the id lower-cased. */
  lemma MinimalFileAcceptedIntended(path: string, text: string, id: string, version: string, name: string, kind: string,
                                    loadYaml: string -> Option<Json>, loadJson: string -> Option<Json>)
    requires ValidAgentId(id)
    requires FormatOf(path).Some?
    requires var doc := Some(JObject(map["agent_id" := JStr(id), "version" := JStr(version), "name" := JStr(name),
                                         "runtime" := JObject(map["type" := JStr(kind)])]));
      (FormatOf(path) == Some(Yaml) ==> loadYaml(text) == doc) && (FormatOf(path) == Some(JsonText) ==> loadJson(text) == doc)
    ensures ParseManifestIntended(path, Some(text), loadYaml, loadJson)
            == Some(AgentManifest(Lower(id), version, name, None, None,
                                  RuntimeConfig(kind, None, None, Some([]), Some(map[])),
                                  [], None, Some([]), Some(map[])))
  {
    MinimalManifest(id, version, name, kind, ValidateAgentIdIntended);
  }

  /** The finding at file level: a YAML manifest with `agent_id: "my agent_1"`
      is returned by the parser as written and rejected by the intended one. */
  lemma SpacedIdManifestAccepted(path: string, text: string, version: string, name: string, kind: string,
                                 loadYaml: string -> Option<Json>, loadJson: string -> Option<Json>)
    requires FormatOf(path) == Some(Yaml)
    requires loadYaml(text) == Some(JObject(map["agent_id" := JStr("my agent_1"), "version" := JStr(version),
                                                "name" := JStr(name), "runtime" := JObject(map["type" := JStr(kind)])]))
    ensures ParseManifest(path, Some(text), loadYaml, loadJson).Some?
    ensures ParseManifest(path, Some(text), loadYaml, loadJson).value.agentId == "my agent_1"
    ensures ParseManifestIntended(path, Some(text), loadYaml, loadJson).None?
  {
    SpacedIdWithUnderscoreAccepted();
    MinimalManifest("my agent_1", version, name, kind, ValidateAgentId);
  }
}

=== FILE: strings.dfy ===
/** The handful of Python `str` operations the modelled code relies on:
    lower-casing, `isalnum`, substring search, `split`, `join`, `strip`,
    ordering and integer formatting. Character classes are the ASCII ones. */
module Strings {
  import opened Base

  // ---------------------------------------------------------------- classes

  predicate IsDigit(c: char) { '0' <= c <= '9' }

  predicate IsAlnumChar(c: char) {
    ('a' <= c <= 'z') || ('A' <= c <= 'Z') || IsDigit(c)
  }

  /** `str.isalnum()`: non-empty and every character a letter or a digit. */
  predicate IsAlnum(s: string) {
    |s| > 0 && forall i :: 0 <= i < |s| ==> IsAlnumChar(s[i])
  }

  /** The characters `str.strip()` removes when given no argument. */
  const Whitespace: set<char> :=
    {' ', '\t', '\n', '\r', '\U{0B}', '\U{0C}', '\U{1C}', '\U{1D}', '\U{1E}', '\U{1F}'}

  // ---------------------------------------------------------------- case

  function LowerChar(c: char): char {
    if 'A' <= c <= 'Z' then (c as int + 32) as char else c
  }

  /** `str.lower()` */
  function Lower(s: string): (r: string)
    ensures |r| == |s|
    ensures forall i :: 0 <= i < |s| ==> r[i] == LowerChar(s[i])
  {
    seq(|s|, i requires 0 <= i < |s| => LowerChar(s[i]))
  }

  lemma LowerIdempotent(s: string)
    ensures Lower(Lower(s)) == Lower(s)
  {
  }

  /** Lower-casing keeps letters letters and digits digits. */
  lemma LowerKeepsAlnum(s: string)
    ensures IsAlnum(Lower(s)) <==> IsAlnum(s)
  {
    if IsAlnum(s) {
      forall i | 0 <= i < |s| ensures IsAlnumChar(Lower(s)[i]) {
        assert IsAlnumChar(s[i]);
      }
    }
    if IsAlnum(Lower(s)) {
      forall i | 0 <= i < |s| ensures IsAlnumChar(s[i]) {
        assert IsAlnumChar(Lower(s)[i]);
      }
    }
  }

  /** Lower-casing changes letters only, so it keeps or drops a given
      non-letter character exactly where the input had it. */
  lemma LowerKeepsSymbol(s: string, c: char)
    requires !('A' <= c <= 'Z') && !('a' <= c <= 'z')
    ensures c in Lower(s) <==> c in s
  {
    if c in s {
      var i :| 0 <= i < |s| && s[i] == c;
      assert Lower(s)[i] == c;
    }
    if c in Lower(s) {
      var i :| 0 <= i < |s| && Lower(s)[i] == c;
      assert s[i] == c;
    }
  }

  // ---------------------------------------------------------------- search

  predicate OccursAt(s: string, sub: string, i: int) {
    0 <= i && i + |sub| <= |s| && s[i..i + |sub|] == sub
  }

  /** The first index at which `sub` occurs in `s`, or `None` (`str.find`). */
  function Find(s: string, sub: string, from: nat := 0): (r: Option<nat>)
    requires from <= |s|
    ensures r.Some? ==> from <= r.value && OccursAt(s, sub, r.value)
    ensures r.Some? ==> forall j :: from <= j < r.value ==> !OccursAt(s, sub, j)
    ensures r.None? ==> forall j :: from <= j ==> !OccursAt(s, sub, j)
    decreases |s| - from
  {
    if OccursAt(s, sub, from) then Some(from)
    else if from == |s| then None
    else Find(s, sub, from + 1)
  }

  /** `s.endswith(suffix)` */
  predicate EndsWith(s: string, suffix: string) {
    |suffix| <= |s| && s[|s| - |suffix|..] == suffix
  }

  /** Python's `sub in s`. */
  predicate Contains(s: string, sub: string) {
    Find(s, sub).Some?
  }

  lemma ContainsIff(s: string, sub: string)
    ensures Contains(s, sub) <==> exists i :: OccursAt(s, sub, i)
  {
  }

  /** `sep` occurs at `i` and nowhere before. */
  predicate FirstOccurrence(s: string, sep: string, i: int) {
    OccursAt(s, sep, i) && forall j :: 0 <= j < i ==> !OccursAt(s, sep, j)
  }

  /** `s.split(sep, 1)[1]` when `sep` occurs in `s`: the text after its
      first occurrence. */
  function AfterFirst(s: string, sep: string): (r: string)
    requires Contains(s, sep)
    ensures exists i :: FirstOccurrence(s, sep, i) && r == s[i + |sep|..]
  {
    var i := Find(s, sep).value;
    assert FirstOccurrence(s, sep, i);
    s[i + |sep|..]
  }

  /** `s.split(sep, 1)`: the text before and after the first occurrence of
      `sep`, or just `[s]` when it does not occur. Python rejects an empty
      separator. */
  function SplitOnce(s: string, sep: string): (r: seq<string>)
    requires sep != ""
    ensures |r| == 2 <==> Contains(s, sep)
    ensures |r| == 1 || |r| == 2
    ensures |r| == 1 ==> r[0] == s
    ensures |r| == 2 ==> r[1] == AfterFirst(s, sep) && r[0] + sep + r[1] == s
  {
    match Find(s, sep)
    case None => [s]
    case Some(i) => [s[..i], s[i + |sep|..]]
  }

  // ---------------------------------------------------------------- strip

  function StripLeft(s: string, chars: set<char>): (r: string)
    ensures |r| <= |s| && r == s[|s| - |r|..]
    ensures |r| > 0 ==> r[0] !in chars
    ensures forall i :: 0 <= i < |s| - |r| ==> s[i] in chars
  {
    if |s| > 0 && s[0] in chars then StripLeft(s[1..], chars) else s
  }

  function StripRight(s: string, chars: set<char>): (r: string)
    ensures |r| <= |s| && r == s[..|r|]
    ensures |r| > 0 ==> r[|r| - 1] !in chars
    ensures forall i :: |r| <= i < |s| ==> s[i] in chars
  {
    if |s| > 0 && s[|s| - 1] in chars then StripRight(s[..|s| - 1], chars) else s
  }

  /** `r` is `s[a..a + |r|]` and every character cut off around it is in `chars`. */
  predicate TrimmedAt(s: string, r: string, chars: set<char>, a: int) {
    && 0 <= a && a + |r| <= |s| && r == s[a..a + |r|]
    && (forall i :: 0 <= i < a ==> s[i] in chars)
    && (forall i :: a + |r| <= i < |s| ==> s[i] in chars)
  }

  /** `s.strip(chars)`: the longest infix of `s` whose first and last
      characters are not in `chars`, everything cut off being in `chars`. */
  function Strip(s: string, chars: set<char>): (r: string)
    ensures exists a :: TrimmedAt(s, r, chars, a)
    ensures |r| > 0 ==> r[0] !in chars && r[|r| - 1] !in chars
  {
    var left := StripLeft(s, chars);
    var r := StripRight(left, chars);
    var a := |s| - |left|;
    assert TrimmedAt(s, r, chars, a);
    r
  }

  lemma StripIdempotent(s: string, chars: set<char>)
    ensures Strip(Strip(s, chars), chars) == Strip(s, chars)
  {
    var r := Strip(s, chars);
    if |r| > 0 {
      assert StripLeft(r, chars) == r;
      assert StripRight(r, chars) == r;
    }
  }

  // ---------------------------------------------------------------- split, join

  /** `sep.join(parts)` for a one-character separator. */
  function Join(parts: seq<string>, sep: char): string {
    if |parts| == 0 then ""
    else if |parts| == 1 then parts[0]
    else parts[0] + [sep] + Join(parts[1..], sep)
  }

  /** `s.split(sep)` for a one-character separator; never empty, and
      `"".split(",") == [""]`. */
  function Split(s: string, sep: char): (r: seq<string>)
    ensures |r| >= 1
    ensures forall k :: 0 <= k < |r| ==> sep !in r[k]
    decreases |s|
  {
    if sep in s then
      var i := FirstIndex(s, sep);
      [s[..i]] + Split(s[i + 1..], sep)
    else [s]
  }

  function FirstIndex(s: string, c: char): (i: nat)
    requires c in s
    ensures i < |s| && s[i] == c && c !in s[..i]
  {
    if s[0] == c then 0 else 1 + FirstIndex(s[1..], c)
  }

  /** Splitting undoes joining as long as no part contains the separator. */
  lemma {:induction false} SplitJoin(parts: seq<string>, sep: char)
    requires |parts| >= 1
    requires forall k :: 0 <= k < |parts| ==> sep !in parts[k]
    ensures Split(Join(parts, sep), sep) == parts
    decreases |parts|
  {
    if |parts| == 1 {
    } else {
      var s := Join(parts, sep);
      var rest := Join(parts[1..], sep);
      assert s == parts[0] + [sep] + rest;
      assert s[|parts[0]|] == sep;
      assert sep in s;
      var i := FirstIndex(s, sep);
      assert s[..|parts[0]|] == parts[0];
      assert i == |parts[0]|;
      assert s[i + 1..] == rest;
      SplitJoin(parts[1..], sep);
    }
  }

  /** Joining undoes splitting: no text is lost by `split`. */
  lemma {:induction false} JoinSplit(s: string, sep: char)
    ensures Join(Split(s, sep), sep) == s
    decreases |s|
  {
    if sep in s {
      var i := FirstIndex(s, sep);
      JoinSplit(s[i + 1..], sep);
      assert s == s[..i] + [sep] + s[i + 1..];
    }
  }

  // ---------------------------------------------------------------- ordering

  /** Python's `<` on strings: lexicographic by code point. */
  predicate Less(a: string, b: string) {
    if |a| == 0 then |b| > 0
    else if |b| == 0 then false
    else a[0] < b[0] || (a[0] == b[0] && Less(a[1..], b[1..]))
  }

  lemma {:induction false} LessIrreflexive(a: string)
    ensures !Less(a, a)
  {
    if |a| > 0 {
      LessIrreflexive(a[1..]);
    }
  }

  lemma {:induction false} LessTransitive(a: string, b: string, c: string)
    requires Less(a, b) && Less(b, c)
    ensures Less(a, c)
  {
    if |a| > 0 && a[0] == b[0] && b[0] == c[0] {
      LessTransitive(a[1..], b[1..], c[1..]);
    }
  }

  lemma {:induction false} LessTotal(a: string, b: string)
    ensures a == b || Less(a, b) || Less(b, a)
  {
    if |a| > 0 && |b| > 0 && a[0] == b[0] {
      LessTotal(a[1..], b[1..]);
      if a[1..] == b[1..] {
        assert a == [a[0]] + a[1..] && b == [b[0]] + b[1..];
      }
    }
  }

  // ---------------------------------------------------------------- numbers

  function DigitChar(d: nat): char
    requires d < 10
  {
    ('0' as int + d) as char
  }

  /** `str(n)` for a natural number: its decimal digits, no leading zero. */
  function NatToString(n: nat): (r: string)
    ensures |r| >= 1
    ensures forall i :: 0 <= i < |r| ==> IsDigit(r[i])
    ensures |r| > 1 ==> r[0] != '0'
  {
    if n < 10 then [DigitChar(n)] else NatToString(n / 10) + [DigitChar(n % 10)]
  }

  /** `int(s)` for a string of decimal digits. */
  function DecimalValue(s: string): int
    requires forall i :: 0 <= i < |s| ==> IsDigit(s[i])
  {
    if |s| == 0 then 0 else 10 * DecimalValue(s[..|s| - 1]) + (s[|s| - 1] as int - '0' as int)
  }

  /** Reading back a formatted number gives the number. */
  lemma {:induction false} NatToStringRoundTrip(n: nat)
    ensures DecimalValue(NatToString(n)) == n
  {
    if n >= 10 {
      NatToStringRoundTrip(n / 10);
      var r := NatToString(n);
      assert r[..|r| - 1] == NatToString(n / 10);
    }
  }

  /** Distinct numbers format to distinct strings. */
  lemma NatToStringInjective(m: nat, n: nat)
    requires NatToString(m) == NatToString(n)
    ensures m == n
  {
    NatToStringRoundTrip(m);
    NatToStringRoundTrip(n);
  }
}

=== FILE: tether_chain.dfy ===
/** The TetherChain audit ledger: an append-only JSON-lines log whose entries
    are linked by hashes (tether_chain/service.py).

    The log file is a sequence of lines, each abstracted to what `json.loads`
    makes of it; SHA-256 over key-sorted JSON is a hash function passed in as
    a parameter, so every property below holds for any hash function. */
module TetherChain {
  import opened Base

  type Digest = string
  /** A UTC instant; the ISO-8601 text of the log is abstracted away. */
  type Time = int
  /** `details`, each value abstracted to its canonical JSON text. */
  type Details = map<string, string>

  /** Every field of an entry except `current_hash`: what the hash covers. */
  datatype Content = Content(
    timestamp: Time,
    eventType: string,
    actorId: string,
    targetId: Option<string>,
    details: Details,
    previousHash: Option<Digest>)

  /** One ledger record (`TetherChainEntry`). */
  datatype Entry = Entry(
    timestamp: Time,
    eventType: string,
    actorId: string,
    targetId: Option<string>,
    details: Details,
    previousHash: Option<Digest>,
    currentHash: Option<Digest>)

  /** SHA-256 of the key-sorted JSON dump, left uninterpreted. */
  type HashFn = Content -> Digest

  function ContentOf(e: Entry): Content {
    Content(e.timestamp, e.eventType, e.actorId, e.targetId, e.details, e.previousHash)
  }

  /** `calculate_hash`: hashes every field except `current_hash`. */
  function CalculateHash(h: HashFn, e: Entry): (r: Digest)
    ensures r == h(ContentOf(e.(currentHash := None)))
  {
    h(ContentOf(e))
  }

  /** Two entries that agree on every field but `current_hash` hash alike; in
      particular storing the hash in an entry does not change its hash. */
  lemma HashIgnoresCurrentHash(h: HashFn, e1: Entry, e2: Entry)
    requires e1.(currentHash := None) == e2.(currentHash := None)
    ensures CalculateHash(h, e1) == CalculateHash(h, e2)
    ensures CalculateHash(h, e1.(currentHash := Some(CalculateHash(h, e1)))) == CalculateHash(h, e1)
  {
  }

  /** An entry whose stored hash is the hash of its other fields. */
  predicate Sealed(h: HashFn, e: Entry) {
    e.currentHash == Some(CalculateHash(h, e))
  }

  // ------------------------------------------------------------ the log file

  /** What `json.loads` makes of a non-blank line.
      `Valid`: an object that `TetherChainEntry(**data)` accepts.
      `Invalid`: an object it rejects; the fields are what `data.get(..)`
      returns for the keys the service reads (`None` when missing).
      `NotObject`: valid JSON that is not an object (`.get` raises). */
  datatype Doc =
    | Valid(entry: Entry)
    | Invalid(eventType: Option<string>, targetId: Option<string>, currentHash: Option<Digest>)
    | NotObject

  /** A line of the log after `strip()`: empty, undecodable, or decoded. */
  datatype Line = Blank | Malformed | Json(doc: Doc)

  /** The log file: `None` when it does not exist. */
  type LogFile = Option<seq<Line>>

  function LinesOf(file: LogFile): seq<Line> {
    file.GetOr([])
  }

  /** `data.get('event_type')` on a decoded object. */
  function GetEventType(d: Doc): Option<string>
    requires !d.NotObject?
  {
    match d
    case Valid(e) => Some(e.eventType)
    case Invalid(t, _, _) => t
  }

  /** `data.get('target_id')` on a decoded object. */
  function GetTargetId(d: Doc): Option<string>
    requires !d.NotObject?
  {
    match d
    case Valid(e) => e.targetId
    case Invalid(_, t, _) => t
  }

  /** `data.get('current_hash')` on a decoded object. */
  function GetCurrentHash(d: Doc): Option<Digest>
    requires !d.NotObject?
  {
    match d
    case Valid(e) => e.currentHash
    case Invalid(_, _, c) => c
  }

  predicate AllEntries(docs: seq<Doc>) {
    forall k :: 0 <= k < |docs| ==> docs[k].Valid?
  }

  function EntriesOf(docs: seq<Doc>): (es: seq<Entry>)
    requires AllEntries(docs)
    ensures |es| == |docs|
    ensures forall k :: 0 <= k < |docs| ==> es[k] == docs[k].entry
  {
    seq(|docs|, k requires 0 <= k < |docs| => docs[k].entry)
  }

  /** A log every line of which is a well-formed entry, as the appender writes it. */
  predicate CleanLog(lines: seq<Line>) {
    forall i :: 0 <= i < |lines| ==> lines[i].Json? && lines[i].doc.Valid?
  }

  function LogEntries(lines: seq<Line>): (es: seq<Entry>)
    requires CleanLog(lines)
    ensures |es| == |lines|
    ensures forall i :: 0 <= i < |lines| ==> es[i] == lines[i].doc.entry
  {
    seq(|lines|, i requires 0 <= i < |lines| => lines[i].doc.entry)
  }

  // ------------------------------------------------------------ the service state

  /** `TetherChainService`: the log file and the in-memory tip `_last_hash`. */
  datatype Ledger = Ledger(file: LogFile, tip: Option<Digest>)

  /** Startup fails only when the last line is JSON but not an object:
      `.get` then raises `AttributeError`, which `_initialize_chain` does not catch. */
  datatype OpenError = LastLineNotAnObject

  /** `_initialize_chain`: the tip is the `current_hash` of the last log line. */
  function InitialTip(file: LogFile): (r: Result<Option<Digest>, OpenError>)
    ensures r.Err? <==> file.Some? && |file.value| > 0 && file.value[|file.value| - 1] == Json(NotObject)
    ensures (file.None? || file.value == []) ==> r == Ok(None)
    ensures file.Some? && |file.value| > 0 && !file.value[|file.value| - 1].Json? ==> r == Ok(None)
    ensures file.Some? && |file.value| > 0 && file.value[|file.value| - 1].Json?
              && !file.value[|file.value| - 1].doc.NotObject? ==>
              r == Ok(GetCurrentHash(file.value[|file.value| - 1].doc))
  {
    match file
    case None => Ok(None)
    case Some(lines) =>
      if |lines| == 0 then Ok(None)
      else
        match lines[|lines| - 1]
        case Blank => Ok(None)
        case Malformed => Ok(None)
        case Json(d) => if d.NotObject? then Err(LastLineNotAnObject) else Ok(GetCurrentHash(d))
  }

  /** `TetherChainService(log_file_path)`: the service starts on the file as
      it is, with the tip read from its last line. */
  function Open(file: LogFile): (r: Result<Ledger, OpenError>)
    ensures r.Err? <==> file.Some? && |file.value| > 0 && file.value[|file.value| - 1] == Json(NotObject)
    ensures r.Ok? ==> r.value.file == file
    ensures r.Ok? && CleanLog(LinesOf(file)) ==> r.value.tip == TipOf(LogEntries(LinesOf(file)))
  {
    match InitialTip(file)
    case Ok(tip) => Ok(Ledger(file, tip))
    case Err(e) => Err(e)
  }

  /** The tip that a chain of entries leaves behind. */
  function TipOf(es: seq<Entry>): Option<Digest> {
    if |es| == 0 then None else es[|es| - 1].currentHash
  }

  // ------------------------------------------------------------ the links

  /** Entry `i` points at its predecessor, or at `genesis` when it is first. */
  predicate LinkOk(es: seq<Entry>, genesis: Option<Digest>, i: int)
    requires 0 <= i < |es|
  {
    es[i].previousHash == (if i == 0 then genesis else es[i - 1].currentHash)
  }

  /** The chain invariant: entry 0 has no predecessor hash and every later
      entry carries its predecessor's `current_hash`. */
  predicate Linked(es: seq<Entry>) {
    forall i :: 0 <= i < |es| ==> LinkOk(es, None, i)
  }

  /** A well-formed ledger: a clean log, linked and sealed, whose last hash is the tip. */
  predicate WellFormed(h: HashFn, s: Ledger) {
    var lines := LinesOf(s.file);
    && CleanLog(lines)
    && Linked(LogEntries(lines))
    && (forall i :: 0 <= i < |lines| ==> Sealed(h, lines[i].doc.entry))
    && s.tip == TipOf(LogEntries(lines))
  }

  // ------------------------------------------------------------ append

  /** The outcome of `add_entry`: the write succeeded and the entry is
      returned, or it failed (the `IOError` is re-raised) and the ledger is
      the one before the call. */
  datatype AddOutcome = Added(ledger: Ledger, entry: Entry) | WriteFailed(ledger: Ledger)

  /** `add_entry(event_type, actor_id, target_id, details)` at time `now`;
      `writeOk` is whether appending the line to the file succeeds. */
  function AddEntry(h: HashFn, s: Ledger, now: Time, eventType: string, actorId: string,
                    targetId: Option<string>, details: Option<Details>, writeOk: bool): (r: AddOutcome)
    ensures r.Added? <==> writeOk
    ensures r.WriteFailed? ==> r.ledger == s
    ensures r.Added? ==>
      && r.entry.previousHash == s.tip
      && Sealed(h, r.entry)
      && r.entry == Entry(now, eventType, actorId, targetId, details.GetOr(map[]), s.tip, r.entry.currentHash)
      && r.ledger.tip == r.entry.currentHash
      && r.ledger.file == Some(LinesOf(s.file) + [Json(Valid(r.entry))])
  {
    var unsealed := Entry(now, eventType, actorId, targetId, details.GetOr(map[]), s.tip, None);
    var entry := unsealed.(currentHash := Some(CalculateHash(h, unsealed)));
    if writeOk then Added(Ledger(Some(LinesOf(s.file) + [Json(Valid(entry))]), entry.currentHash), entry)
    else WriteFailed(s)
  }

  lemma LogEntriesAppend(lines: seq<Line>, e: Entry)
    requires CleanLog(lines)
    ensures CleanLog(lines + [Json(Valid(e))])
    ensures LogEntries(lines + [Json(Valid(e))]) == LogEntries(lines) + [e]
  {
  }

  /** Appending keeps a ledger well formed. */
  lemma AddPreservesWellFormed(h: HashFn, s: Ledger, now: Time, eventType: string, actorId: string,
                               targetId: Option<string>, details: Option<Details>, writeOk: bool)
    requires WellFormed(h, s)
    ensures WellFormed(h, AddEntry(h, s, now, eventType, actorId, targetId, details, writeOk).ledger)
  {
    var r := AddEntry(h, s, now, eventType, actorId, targetId, details, writeOk);
    if r.Added? {
      var lines := LinesOf(s.file);
      LogEntriesAppend(lines, r.entry);
      var es := LogEntries(lines);
      var es' := LogEntries(LinesOf(r.ledger.file));
      assert es' == es + [r.entry];
      forall i | 0 <= i < |es'| ensures LinkOk(es', None, i) {
        if i < |es| {
          assert LinkOk(es, None, i);
        }
      }
    }
  }

  /** Restarting the service on the file a well-formed ledger wrote recovers
      exactly its tip. */
  lemma OpenRecoversTip(h: HashFn, s: Ledger)
    requires WellFormed(h, s)
    ensures Open(s.file) == Ok(s)
  {
  }

  /** One call of `add_entry`, with its clock reading and write outcome. */
  datatype AddCall = AddCall(now: Time, eventType: string, actorId: string,
                             targetId: Option<string>, details: Option<Details>, writeOk: bool)

  function AddAll(h: HashFn, s: Ledger, calls: seq<AddCall>): Ledger
    decreases |calls|
  {
    if |calls| == 0 then s
    else
      var c := calls[0];
      AddAll(h, AddEntry(h, s, c.now, c.eventType, c.actorId, c.targetId, c.details, c.writeOk).ledger, calls[1..])
  }

  function SuccessfulWrites(calls: seq<AddCall>): nat {
    if |calls| == 0 then 0 else (if calls[0].writeOk then 1 else 0) + SuccessfulWrites(calls[1..])
  }

  lemma {:induction false} AddAllWellFormed(h: HashFn, s: Ledger, calls: seq<AddCall>)
    requires WellFormed(h, s)
    ensures WellFormed(h, AddAll(h, s, calls))
    ensures |LinesOf(AddAll(h, s, calls).file)| == |LinesOf(s.file)| + SuccessfulWrites(calls)
    decreases |calls|
  {
    if |calls| > 0 {
      var c := calls[0];
      AddPreservesWellFormed(h, s, c.now, c.eventType, c.actorId, c.targetId, c.details, c.writeOk);
      AddAllWellFormed(h, AddEntry(h, s, c.now, c.eventType, c.actorId, c.targetId, c.details, c.writeOk).ledger, calls[1..]);
    }
  }

  /** Starting from a missing log, any sequence of `add_entry` calls, some of
      whose writes fail, leaves one entry per successful write; entry 0 has no
      previous hash and every later entry carries its predecessor's hash. */
  lemma AppendsFormChain(h: HashFn, calls: seq<AddCall>)
    ensures Open(None) == Ok(Ledger(None, None))
    ensures var s := AddAll(h, Ledger(None, None), calls);
      && WellFormed(h, s)
      && |LinesOf(s.file)| == SuccessfulWrites(calls)
      && (|LinesOf(s.file)| > 0 ==> LogEntries(LinesOf(s.file))[0].previousHash == None)
      && (forall i :: 0 < i < |LinesOf(s.file)| ==>
            LogEntries(LinesOf(s.file))[i].previousHash == LogEntries(LinesOf(s.file))[i - 1].currentHash)
  {
    AddAllWellFormed(h, Ledger(None, None), calls);
    var s := AddAll(h, Ledger(None, None), calls);
    var es := LogEntries(LinesOf(s.file));
    forall i | 0 <= i < |es| ensures es[i].previousHash == (if i == 0 then None else es[i - 1].currentHash) {
      assert LinkOk(es, None, i);
    }
    if |es| > 0 {
      assert LinkOk(es, None, 0);
    }
  }

  // ------------------------------------------------------------ reading

  /** A filter argument takes part only when it is truthy (a non-empty string). */
  predicate FilterOn(f: Option<string>) {
    f.Some? && f.value != ""
  }

  /** Whether a decoded line passes every supplied filter (they are a conjunction). */
  predicate Selected(d: Doc, eventType: Option<string>, targetId: Option<string>) {
    if d.NotObject? then !FilterOn(eventType) && !FilterOn(targetId)
    else
      && (!FilterOn(eventType) || GetEventType(d) == eventType)
      && (!FilterOn(targetId) || GetTargetId(d) == targetId)
  }

  /** The decoded lines that pass the filters, oldest first; blank and
      undecodable lines are skipped. */
  function Matching(lines: seq<Line>, eventType: Option<string>, targetId: Option<string>): seq<Doc> {
    if |lines| == 0 then []
    else
      (if lines[0].Json? && Selected(lines[0].doc, eventType, targetId) then [lines[0].doc] else [])
      + Matching(lines[1..], eventType, targetId)
  }

  /** With a filter supplied, a line that is JSON but not an object makes
      `.get` raise, and the listing's `except Exception` returns `[]`. */
  predicate ListingRaises(lines: seq<Line>, eventType: Option<string>, targetId: Option<string>) {
    (FilterOn(eventType) || FilterOn(targetId)) && Json(NotObject) in lines
  }

  /** The result of `get_log_entries(limit, offset, event_type, target_id)`:
      the slice `[offset : offset + limit]` of the newest-first matches,
      converted to entries; `[]` when the file is missing or reading raises. */
  function Listing(file: LogFile, limit: int, offset: int,
                   eventType: Option<string>, targetId: Option<string>): seq<Entry> {
    match file
    case None => []
    case Some(lines) =>
      if ListingRaises(lines, eventType, targetId) then []
      else
        var page := PySlice(Reverse(Matching(lines, eventType, targetId)), offset, offset + limit);
        if AllEntries(page) then EntriesOf(page) else []
  }

  lemma {:induction false} MatchingAppend(a: seq<Line>, b: seq<Line>, eventType: Option<string>, targetId: Option<string>)
    ensures Matching(a + b, eventType, targetId) == Matching(a, eventType, targetId) + Matching(b, eventType, targetId)
    decreases |a|
  {
    if |a| == 0 {
      assert a + b == b;
    } else {
      assert (a + b)[0] == a[0];
      assert (a + b)[1..] == a[1..] + b;
      MatchingAppend(a[1..], b, eventType, targetId);
    }
  }

  /** A document is listed exactly when some line decodes to it and it passes the filters. */
  lemma {:induction false} MatchingMembers(lines: seq<Line>, eventType: Option<string>, targetId: Option<string>, d: Doc)
    ensures d in Matching(lines, eventType, targetId) <==> Json(d) in lines && Selected(d, eventType, targetId)
    decreases |lines|
  {
    if |lines| > 0 {
      MatchingMembers(lines[1..], eventType, targetId, d);
      assert lines == [lines[0]] + lines[1..];
    }
  }

  /** One line more, walking newest first: the newest-first matches of
      `lines[i..]` are those of `lines[i + 1..]` followed by line `i` if it matches. */
  lemma MatchingStep(lines: seq<Line>, i: nat, eventType: Option<string>, targetId: Option<string>)
    requires i < |lines|
    ensures Reverse(Matching(lines[i..], eventType, targetId))
      == Reverse(Matching(lines[i + 1..], eventType, targetId))
         + (if lines[i].Json? && Selected(lines[i].doc, eventType, targetId) then [lines[i].doc] else [])
  {
    assert lines[i..] == [lines[i]] + lines[i + 1..];
    ReverseAppend(if lines[i].Json? && Selected(lines[i].doc, eventType, targetId) then [lines[i].doc] else [],
                  Matching(lines[i + 1..], eventType, targetId));
  }

  /** The first loop of `get_log_entries`: walk the lines newest first, skip
      blank and undecodable ones, keep the matches; `None` when `.get` raises
      on a line that is not an object. */
  method RelevantRecords(lines: seq<Line>, eventType: Option<string>, targetId: Option<string>)
    returns (relevant: Option<seq<Doc>>)
    ensures relevant.None? <==> ListingRaises(lines, eventType, targetId)
    ensures relevant.Some? ==> relevant.value == Reverse(Matching(lines, eventType, targetId))
  {
    var found: seq<Doc> := [];
    var i := |lines|;
    while i > 0
      invariant 0 <= i <= |lines|
      invariant found == Reverse(Matching(lines[i..], eventType, targetId))
      invariant (FilterOn(eventType) || FilterOn(targetId)) ==> Json(NotObject) !in lines[i..]
    {
      i := i - 1;
      var line := lines[i];
      MatchingStep(lines, i, eventType, targetId);
      if line.Json? {
        if line.doc.NotObject? && (FilterOn(eventType) || FilterOn(targetId)) {
          // `.get` on a non-object raises; the listing's handler returns [].
          assert Json(NotObject) in lines;
          return None;
        }
        if Selected(line.doc, eventType, targetId) {
          found := found + [line.doc];
        }
      }
      assert lines[i..] == [line] + lines[i + 1..];
    }
    assert lines[0..] == lines;
    return Some(found);
  }

  /** The conversion loop of `get_log_entries`: every record of the page
      becomes an entry, or the handler returns `[]` at the first that is not one. */
  method PageEntries(page: seq<Doc>) returns (r: seq<Entry>)
    ensures AllEntries(page) ==> r == EntriesOf(page)
    ensures !AllEntries(page) ==> r == []
  {
    r := [];
    var k := 0;
    while k < |page|
      invariant 0 <= k <= |page|
      invariant AllEntries(page[..k]) && r == EntriesOf(page[..k])
    {
      if !page[k].Valid? {
        // `TetherChainEntry(**data)` rejects the record; the handler returns [].
        return [];
      }
      assert page[..k + 1] == page[..k] + [page[k]];
      r := r + [page[k].entry];
      k := k + 1;
    }
    assert page[..k] == page;
  }

  /** `get_log_entries`, following the source: collect the matches newest
      first, slice the page, convert it. */
  method GetLogEntries(file: LogFile, limit: int, offset: int,
                       eventType: Option<string>, targetId: Option<string>) returns (r: seq<Entry>)
    ensures r == Listing(file, limit, offset, eventType, targetId)
  {
    if file.None? {
      return [];
    }
    var relevant := RelevantRecords(file.value, eventType, targetId);
    if relevant.None? {
      return [];
    }
    var page := PySlice(relevant.value, offset, offset + limit);
    r := PageEntries(page);
  }

  /** A missing log lists nothing; a page never holds more than a non-negative
      `limit` entries; every listed entry passes every supplied filter. */
  lemma ListingProperties(file: LogFile, limit: int, offset: int,
                          eventType: Option<string>, targetId: Option<string>)
    ensures file.None? ==> Listing(file, limit, offset, eventType, targetId) == []
    ensures 0 <= limit ==> |Listing(file, limit, offset, eventType, targetId)| <= limit
    ensures forall e :: e in Listing(file, limit, offset, eventType, targetId) ==>
      && (FilterOn(eventType) ==> Some(e.eventType) == eventType)
      && (FilterOn(targetId) ==> e.targetId == targetId)
  {
    if file.Some? && !ListingRaises(file.value, eventType, targetId) {
      var m := Matching(file.value, eventType, targetId);
      var page := PySlice(Reverse(m), offset, offset + limit);
      PageBounds(Reverse(m), offset, limit);
      if AllEntries(page) {
        forall e | e in EntriesOf(page)
          ensures (FilterOn(eventType) ==> Some(e.eventType) == eventType)
          ensures (FilterOn(targetId) ==> e.targetId == targetId)
        {
          var k :| 0 <= k < |page| && EntriesOf(page)[k] == e;
          assert page[k] in Reverse(m);
          var j :| 0 <= j < |m| && Reverse(m)[j] == page[k];
          assert m[|m| - 1 - j] == page[k];
          MatchingMembers(file.value, eventType, targetId, page[k]);
        }
      }
    }
  }

  /** Blank and undecodable lines are skipped rather than aborting the listing:
      removing one changes no listing. */
  lemma SkippedLinesIgnored(a: seq<Line>, x: Line, b: seq<Line>, limit: int, offset: int,
                            eventType: Option<string>, targetId: Option<string>)
    requires x == Blank || x == Malformed
    ensures Listing(Some(a + [x] + b), limit, offset, eventType, targetId)
         == Listing(Some(a + b), limit, offset, eventType, targetId)
  {
    MatchingAppend(a + [x], b, eventType, targetId);
    MatchingAppend(a, [x], eventType, targetId);
    MatchingAppend(a, b, eventType, targetId);
    assert Matching([x], eventType, targetId) == [];
    assert Matching(a + [x] + b, eventType, targetId) == Matching(a + b, eventType, targetId);
    assert Json(NotObject) in a + [x] + b <==> Json(NotObject) in a + b by {
      if Json(NotObject) in a + [x] + b {
        var i :| 0 <= i < |a + [x] + b| && (a + [x] + b)[i] == Json(NotObject);
        if i < |a| {
          assert (a + b)[i] == Json(NotObject);
        } else {
          assert (a + b)[i - 1] == Json(NotObject);
        }
      }
      if Json(NotObject) in a + b {
        var i :| 0 <= i < |a + b| && (a + b)[i] == Json(NotObject);
        if i < |a| {
          assert (a + [x] + b)[i] == Json(NotObject);
        } else {
          assert (a + [x] + b)[i + 1] == Json(NotObject);
        }
      }
    }
  }

  lemma {:induction false} CleanMatching(lines: seq<Line>)
    requires CleanLog(lines)
    ensures Matching(lines, None, None) == seq(|lines|, i requires 0 <= i < |lines| => lines[i].doc)
    decreases |lines|
  {
    if |lines| > 0 {
      CleanMatching(lines[1..]);
    }
  }

  /** Without filters, a clean log lists newest first: page `[offset,
      offset + limit)` of the entries in reverse order of appending. */
  lemma CleanListingIsNewestFirst(lines: seq<Line>, limit: nat, offset: nat)
    requires CleanLog(lines)
    ensures var es := Reverse(LogEntries(lines));
      Listing(Some(lines), limit, offset, None, None)
        == (if offset >= |es| then [] else es[offset..if offset + limit > |es| then |es| else offset + limit])
  {
    CleanMatching(lines);
    var m := Matching(lines, None, None);
    var es := Reverse(LogEntries(lines));
    assert AllEntries(Reverse(m)) && EntriesOf(Reverse(m)) == es;
    PageBounds(Reverse(m), offset, limit);
    var page := PySlice(Reverse(m), offset, offset + limit);
    assert AllEntries(page);
  }

  // ------------------------------------------------------------ verification

  /** The walk of `verify_chain_integrity`: the expected previous hash starts
      at `genesis` and becomes each entry's `current_hash`; the result is the
      position of the first entry whose `previous_hash` differs, if any. */
  function LinkBreak(es: seq<Entry>, genesis: Option<Digest>): (r: Option<nat>)
    ensures r.None? <==> forall i :: 0 <= i < |es| ==> LinkOk(es, genesis, i)
    ensures r.Some? ==> r.value < |es| && !LinkOk(es, genesis, r.value)
    ensures r.Some? ==> forall i :: 0 <= i < r.value ==> LinkOk(es, genesis, i)
    decreases |es|
  {
    if |es| == 0 then None
    else if es[0].previousHash != genesis then assert !LinkOk(es, genesis, 0); Some(0)
    else
      var rest := LinkBreak(es[1..], es[0].currentHash);
      assert LinkOk(es, genesis, 0);
      assert forall j :: 0 <= j < |es| - 1 ==> (LinkOk(es[1..], es[0].currentHash, j) <==> LinkOk(es, genesis, j + 1));
      assert forall i :: 1 <= i < |es| ==> (LinkOk(es, genesis, i) <==> LinkOk(es[1..], es[0].currentHash, i - 1));
      if rest.Some? then Some(rest.value + 1) else None
  }

  /** `verify_chain_integrity` as written: the link walk over
      `get_log_entries(limit=1000000)`, whose result is newest first. */
  function VerifyAsWritten(file: LogFile): (ok: bool)
    ensures file.None? ==> ok
    ensures var listed := Listing(file, 1000000, 0, None, None);
      ok <==> forall i :: 0 <= i < |listed| ==> LinkOk(listed, None, i)
  {
    LinkBreak(Listing(file, 1000000, 0, None, None), None).None?
  }

  lemma CleanTail(lines: seq<Line>)
    requires |lines| > 0
    ensures CleanLog(lines) ==> CleanLog(lines[1..]) && LogEntries(lines) == [lines[0].doc.entry] + LogEntries(lines[1..])
  {
    if CleanLog(lines) {
      assert forall i :: 0 <= i < |lines| - 1 ==> lines[1..][i] == lines[i + 1];
    }
  }

  /** The log's entries in chronological order, skipping blank and
      undecodable lines as the reader does; `None` when a line decodes to
      something that is not an entry. */
  function ChronologicalEntries(lines: seq<Line>): (r: Option<seq<Entry>>)
    ensures CleanLog(lines) ==> r == Some(LogEntries(lines))
    decreases |lines|
  {
    if |lines| == 0 then Some([])
    else
      var rest := ChronologicalEntries(lines[1..]);
      CleanTail(lines);
      match lines[0]
      case Blank => rest
      case Malformed => rest
      case Json(d) =>
        if d.Valid? && rest.Some? then Some([d.entry] + rest.value) else None
  }

  /** The link check as intended: over the whole log, oldest first, starting
      from no previous hash; an empty or missing log is valid, and a record
      that is not an entry fails verification. */
  function VerifyChainIntegrity(file: LogFile): (ok: bool)
    ensures file.None? ==> ok
    ensures file.Some? && CleanLog(file.value) ==> (ok <==> Linked(LogEntries(file.value)))
    ensures file.Some? && Unreadable(file.value) ==> !ok
  {
    match file
    case None => true
    case Some(lines) =>
      UnreadableBlocksEntries(lines);
      match ChronologicalEntries(lines)
      case None => false
      case Some(es) => LinkBreak(es, None).None?
  }

  /** Some line decodes to something that is not an entry: a non-object, or
      an object `TetherChainEntry` rejects. */
  predicate Unreadable(lines: seq<Line>) {
    exists i :: 0 <= i < |lines| && lines[i].Json? && !lines[i].doc.Valid?
  }

  lemma {:induction false} UnreadableBlocksEntries(lines: seq<Line>)
    ensures Unreadable(lines) ==> ChronologicalEntries(lines).None?
    decreases |lines|
  {
    if Unreadable(lines) {
      var i :| 0 <= i < |lines| && lines[i].Json? && !lines[i].doc.Valid?;
      if i > 0 {
        assert lines[1..][i - 1] == lines[i];
        UnreadableBlocksEntries(lines[1..]);
      }
    }
  }

  lemma {:induction false} MatchingLength(lines: seq<Line>, eventType: Option<string>, targetId: Option<string>)
    ensures |Matching(lines, eventType, targetId)| <= |lines|
    decreases |lines|
  {
    if |lines| > 0 {
      MatchingLength(lines[1..], eventType, targetId);
    }
  }

  /** Every chain the appender builds passes verification. */
  lemma WellFormedVerifies(h: HashFn, s: Ledger)
    requires WellFormed(h, s)
    ensures VerifyChainIntegrity(s.file)
  {
  }

  /** So does every log built from a missing file by `add_entry` calls. */
  lemma AppendedLogVerifies(h: HashFn, calls: seq<AddCall>)
    ensures VerifyChainIntegrity(AddAll(h, Ledger(None, None), calls).file)
  {
    AddAllWellFormed(h, Ledger(None, None), calls);
  }

  /** The first link break of a clean log is the first entry whose
      `previous_hash` is not its predecessor's `current_hash` (or, for entry 0,
      is not absent). */
  lemma BreakIsFirstBadLink(lines: seq<Line>, k: nat)
    requires CleanLog(lines) && k < |lines|
    requires forall i :: 0 <= i < k ==> LinkOk(LogEntries(lines), None, i)
    requires !LinkOk(LogEntries(lines), None, k)
    ensures LinkBreak(LogEntries(lines), None) == Some(k)
    ensures !VerifyChainIntegrity(Some(lines))
  {
  }

  // ------------------------------------------------------------ findings

  /** As written, the walk sees the newest entry first and expects it to have
      no previous hash, so every appended chain of two or more entries fails. */
  lemma NewestFirstRejectsChain(h: HashFn, s: Ledger)
    requires WellFormed(h, s)
    requires |LinesOf(s.file)| >= 2
    ensures !VerifyAsWritten(s.file)
    ensures VerifyChainIntegrity(s.file)
  {
    var lines := LinesOf(s.file);
    var es := LogEntries(lines);
    var n := |es|;
    CleanListingIsNewestFirst(lines, 1000000, 0);
    var listed := Listing(s.file, 1000000, 0, None, None);
    assert listed[0] == es[n - 1];
    assert LinkOk(es, None, n - 1);
    assert Sealed(h, lines[n - 2].doc.entry);
    assert !LinkOk(listed, None, 0);
  }

  /** As written, a line among the newest 1,000,000 that decodes to something
      other than an entry makes the listing raise and return `[]`, which the
      walk then calls valid, whatever the rest of the log holds. */
  lemma UnreadableRecordPassesAsWritten(older: seq<Line>, d: Doc, newer: seq<Line>)
    requires !d.Valid?
    requires |newer| < 1000000
    ensures VerifyAsWritten(Some(older + [Json(d)] + newer))
    ensures !VerifyChainIntegrity(Some(older + [Json(d)] + newer))
  {
    var all := older + [Json(d)] + newer;
    MatchingAppend(older + [Json(d)], newer, None, None);
    MatchingAppend(older, [Json(d)], None, None);
    assert Matching([Json(d)], None, None) == [d];
    MatchingLength(newer, None, None);
    var m := Matching(all, None, None);
    var k := |Matching(newer, None, None)|;
    assert m[|m| - 1 - k] == d;
    var page := PySlice(Reverse(m), 0, 1000000);
    PageBounds(Reverse(m), 0, 1000000);
    assert page[k] == d;
    assert Listing(Some(all), 1000000, 0, None, None) == [];
    assert all[|older|] == Json(d);
  }

  /** Reversing the listing is not enough either: it holds only the newest
      1,000,000 entries, and the oldest of those has a previous hash. */
  lemma ReversedListingRejectsLongChain(h: HashFn, s: Ledger)
    requires WellFormed(h, s)
    requires |LinesOf(s.file)| > 1000000
    ensures LinkBreak(Reverse(Listing(s.file, 1000000, 0, None, None)), None) == Some(0)
  {
    var lines := LinesOf(s.file);
    var es := LogEntries(lines);
    var n := |es|;
    CleanListingIsNewestFirst(lines, 1000000, 0);
    var listed := Listing(s.file, 1000000, 0, None, None);
    var window := Reverse(listed);
    assert window[0] == listed[999999] == es[n - 1000000];
    assert LinkOk(es, None, n - 1000000);
    assert Sealed(h, lines[n - 1000001].doc.entry);
  }

  // ------------------------------------------------------------ content hashes

  /** Entry `i` is linked to its predecessor and its stored hash matches its content. */
  predicate StrictOk(h: HashFn, es: seq<Entry>, genesis: Option<Digest>, i: int)
    requires 0 <= i < |es|
  {
    LinkOk(es, genesis, i) && Sealed(h, es[i])
  }

  /** The walk with the content-hash recomputation the source leaves commented
      out: the first entry that is unlinked or whose hash does not match. */
  function StrictBreak(h: HashFn, es: seq<Entry>, genesis: Option<Digest>): (r: Option<nat>)
    ensures r.None? <==> forall i :: 0 <= i < |es| ==> StrictOk(h, es, genesis, i)
    ensures r.Some? ==> r.value < |es| && !StrictOk(h, es, genesis, r.value)
    ensures r.Some? ==> forall i :: 0 <= i < r.value ==> StrictOk(h, es, genesis, i)
    decreases |es|
  {
    if |es| == 0 then None
    else if es[0].previousHash != genesis || !Sealed(h, es[0]) then assert !StrictOk(h, es, genesis, 0); Some(0)
    else
      var rest := StrictBreak(h, es[1..], es[0].currentHash);
      assert StrictOk(h, es, genesis, 0);
      assert forall j :: 0 <= j < |es| - 1 ==> (StrictOk(h, es[1..], es[0].currentHash, j) <==> StrictOk(h, es, genesis, j + 1));
      assert forall i :: 1 <= i < |es| ==> (StrictOk(h, es, genesis, i) <==> StrictOk(h, es[1..], es[0].currentHash, i - 1));
      if rest.Some? then Some(rest.value + 1) else None
  }

  /** Changing the details of entry `k` of a well-formed chain, in a way that
      changes its hash, is reported by the strict walk at exactly position `k`. */
  lemma TamperedDetailsDetected(h: HashFn, s: Ledger, k: nat, d: Details)
    requires WellFormed(h, s)
    requires k < |LinesOf(s.file)|
    requires var e := LogEntries(LinesOf(s.file))[k];
      CalculateHash(h, e.(details := d)) != CalculateHash(h, e)
    ensures var es := LogEntries(LinesOf(s.file));
      StrictBreak(h, es[k := es[k].(details := d)], None) == Some(k)
  {
    var lines := LinesOf(s.file);
    var es := LogEntries(lines);
    var t := es[k := es[k].(details := d)];
    forall i | 0 <= i < k ensures StrictOk(h, t, None, i) {
      assert LinkOk(es, None, i);
      assert Sealed(h, lines[i].doc.entry);
    }
    assert LinkOk(es, None, k);
    assert Sealed(h, lines[k].doc.entry);
    assert !StrictOk(h, t, None, k);
  }
}

=== FILE: values.dfy ===
/** Dynamically typed values as they arrive from JSON or YAML documents and
    from the `Dict[str, Any]` parameters that agents receive. */
module Values {
  import opened Base

  /** A decoded JSON/YAML value. Numbers are integers. */
  datatype Json =
    | JNull
    | JBool(b: bool)
    | JNum(n: int)
    | JStr(s: string)
    | JList(items: seq<Json>)
    | JObject(fields: map<string, Json>)

  /** Python truth: `None`, `False`, `0` and empty strings, lists and dicts are false. */
  predicate Truthy(v: Json) {
    match v
    case JNull => false
    case JBool(b) => b
    case JNum(n) => n != 0
    case JStr(s) => s != ""
    case JList(items) => items != []
    case JObject(fields) => fields != map[]
  }

  /** A `Dict[str, Any]` argument. */
  type Params = map<string, Json>

  /** `d.get(key)`: `None` when the key is missing. */
  function Get(d: Params, key: string): Option<Json> {
    if key in d then Some(d[key]) else None
  }

  /** `d.get(key, default)`: the stored value, whatever it is, when the key is
      present; otherwise `default`. */
  function GetOr(d: Params, key: string, default: Json): (v: Json)
    ensures key in d ==> v == d[key]
    ensures key !in d ==> v == default
  {
    if key in d then d[key] else default
  }

  /** Python truth of a `d.get(key)` result, where a missing key gives `None`. */
  predicate TruthyOpt(v: Option<Json>) {
    v.Some? && Truthy(v.value)
  }

  /** `params or {}`: a missing or empty dictionary becomes `{}`. */
  function OrEmpty(params: Option<Params>): (d: Params)
    ensures params.Some? ==> d == params.value
    ensures params.None? ==> d == map[]
  {
    if params.Some? then params.value else map[]
  }
}
